=== FILE: README.md ===
# Jump point search on a grid map — a Dafny model

This project models the `JPS` class of `Script/JPS.ts`, a jump point search
path finder for tile maps. A `JPS` instance is built for one map rectangle
in world coordinates and a cell size. It rasterises the map into a table of
cells, `mapTable`, holding a search record for each cell: G, H, F and the
parent cell. The cells covered by obstacles are recorded as fixed closed
cells. The instance then answers path queries between two world points.

A query (`findGridPath`) runs the source's search loop:

1. Close the current point.
2. Scan from it along its row and column (`searchBase`). Four cursors move
   in lock step. A cell with a forced neighbour becomes a jump point.
   Meeting the goal ends the scan.
3. Scan along the four diagonals (`search45`). Each diagonal cell that is
   walked starts a one-direction cardinal scan of its own.
4. Open the jump points: new cells are scored from the current point, and
   open cells are offered it as their parent.
5. Take the open cell of least F as the next current point.

The loop ends when the goal is met, when the open list runs empty, or at
round 667, when the round counter passes 666. A met goal yields the cells
from the start to the goal, found by walking back along parent links.

Module layout:

* `cells.dfy` (module `Cells`) holds the values:
  * cells, world points, rectangles and the per-cell record;
  * the cost formulas G (10 per unit of difference on each axis), H (ten
    times the Manhattan distance) and F = G + H;
  * `Reparented`, which gives the effect of offering an open cell a new
    parent.
* `jps.dfy` (module `Jps`) holds the class `JPS`, with the source's fields
  (`mapTable`, `openList`, `openListMap`, `fixClosedListMap`,
  `closedListMap`, `bronPoint`, `targetPoint`, `nowPoint`,
  `hasFindTarget`, `model`, `searchLimit`) and its methods.

The string keys `"x_y"` of the source are replaced by the cell pair itself.
A `Map` used as a set is modelled as a `set<Cell>`. Each record is the value
`mapTable[c]`, whereas the source shares one object between the table and
the lists. The model relies on two ghost fields, `rank` and `nextRank`, which
record the order in which cells were closed. With them the object invariant
`SearchInv` shows that parent links form a tree rooted at the start. It then
follows that walking back along parents terminates and never repeats a cell.

A thrown `Error` in the source becomes an `ok: bool` result.

The loops of `searchBase` and `search45` run in helper methods, one per
block of the source loop body:

* `Step`, `Lane`, `Lanes`, `CursorsOnGoal` and `Round` for `searchBase`;
* `DiagStep`, `DiagAdvance`, `WalkDiagonal`, `WalkDiagonals` and
  `EnterStep` for `search45`.

The body of `findGridPath` is likewise split into `Begin`, `Expand`,
`ScanFrom`, `CloseCurrent`, `OpenJumpPoints` (one `OfferJumpPoint` per
jump point), `Next`, `Advance`, `Explore`, `Search` and `WalkParents`.

The contracts state soundness: a cursor never steps past an obstacle, the
edge or the goal; every report is a clear cell reached along a scanned line
or diagonal walk with nothing blocked before it (`Visible`); the goal is
found only when it is `Visible` from the current point; and every parent
link, hence every step of a returned path, is `Visible`. They also state
completeness: a row-and-column scan that neither finds nor reports the
goal reports every jump cell on its enabled lines, and a goal in view of
the current point is found. A goal is in view of a point
(`InView`) when it lies on the point's row or column with every cell after
the point up to the goal clear, or on one of its diagonals with every step
before it passing the loop test of `search45` and, after the first, free of
forced neighbours. A goal in view of the current point is found in that
round, so for a goal in view of the start `findGridPath` returns exactly
the start and the goal.

Wherever the source sets `hasFindTarget` inside `searchBase`, `search45`
or the loop of `findGridPath`, the model's `SearchBase`, `Search45` and
`Explore` return a `found` flag instead. `Search` then sets
`hasFindTarget`. This is equivalent because the flag is only ever set to
true, and each caller tests it right after the call.

The model keeps these behaviours of the code exactly as written:

* A re-parenting tie keeps the new parent: the old one is restored only when
  the new F is strictly greater.
* In the diagonal case, the second forced-neighbour test looks at
  `x - 1` rather than `x - dx`.
* After the up cursor of `searchBase` stops, the round goes on. For the
  other three cursors, the rest of the round is skipped, including the
  end-of-round goal check.
* The end-of-round check stops the scan when any cursor stands on the goal,
  even when that cell is an obstacle at which the cursor stopped.
* `model` is stored by `findGridPath` but never read by the search. It is
  read only in `autoAddPathPoint`, which nothing calls. Both searches
  therefore behave alike.
* `searchLimit` is stored but not used; the round cap is the literal 666.
* Within `findGridPath`, `search45` always runs from the current point, and
  that point is already closed with `hasFindTarget` still false. So the
  goal is never reported as a jump point there (lines 466-469 and
  499-502). Also, a cardinal scan that finds the goal does so from the
  current point itself, so the branch that opens that cell (lines 481-488)
  changes nothing. `ScanFrom`'s contract states both facts: the search
  state is unchanged, and every report is clear and is never the goal.

## Model

| member | source | states |
|---|---|---|
| Cells.Ceil | Script/JPS.ts:163-164 | `Math.ceil`: the result is the least integer not below its argument |
| Cells.HeuristicConsistent | Script/JPS.ts:618-631 | H never drops by more than the G increment of a step, so H is consistent with the move cost |
| Cells.ScoredFNotBelowParent | Script/JPS.ts:610-631 | when the parent's own F is G + H towards the same goal, F of a cell scored from it is never below the parent's F; the start's record, whose G/H/F may be left from an earlier search, is not covered |
| Cells.ReparentKeepsCheaper | Script/JPS.ts:93-104 | offering an open cell a new parent keeps the table's keys and leaves the cell with the smaller F; the new parent wins ties; no other record changes |
| Cells.ReparentTwice | Script/JPS.ts:93-104 | offering an open cell the same parent a second time leaves its record as the first offer left it |
| Jps.Reversed | Script/JPS.ts:568 | `paths.reverse()`: same length, element i is element n-1-i of the input |
| Jps.RemoveAt | Script/JPS.ts:125-128 | removing one entry from a list without repetition removes exactly that cell and keeps the rest repetition-free |
| Jps.UnclosedSnoc | Script/JPS.ts:550-554 | one more jump point adds itself to the cells the loop opens exactly when it is not closed |
| Jps.OfferOne | Script/JPS.ts:550-554 | offering one more jump point the current point, after earlier ones were, gives the record `Offered` states for all of them |
| Jps.OpenNew | Script/JPS.ts:105-110 | scoring a new cell from a closed current point and opening it preserves the search invariant (start, open list, parent tree) |
| Jps.Reopen | Script/JPS.ts:93-104 | re-parenting an open cell from a closed current point preserves the search invariant and changes only that cell's record |
| Jps.Close | Script/JPS.ts:144-149 | closing the current point (the start first, then cells whose parent is closed) preserves the search invariant and gives it the next rank |
| Jps.BlankTable | Script/JPS.ts:163-167 | the table holds exactly the cells of the cols-by-rows rectangle, each with a blank record |
| Jps.JPS.constructor | Script/JPS.ts:158-169 | origin shifted by the anchor; table of ceil(width/len) by ceil(height/len) blank cells; searchLimit is the given one when positive, else 688; fixed cells are those of the obstacles of area at least 2; lists empty |
| Jps.JPS.GetGridPosition | Script/JPS.ts:201-211 | a point maps to its floored cell, and to no cell exactly when that cell is off the map |
| Jps.JPS.RawOfCellToWorld | Script/JPS.ts:578-586 | a cell converted to the world with an anchor inside the cell floors back to the same cell |
| Jps.JPS.GridPositionConvertGameObjectPosition | Script/JPS.ts:578-586 | one world point per cell, in order, at origin + (cell + anchor) * gridLength; each converts back to its cell |
| Jps.JPS.GetGridPositions | Script/JPS.ts:172-198 | lists exactly the table cells inside the obstacle's bounding box, with width and height swapped at -90 and -270 degrees |
| Jps.JPS.CellsInSpan | Script/JPS.ts:190-196 | the double loop yields exactly the table cells of the span |
| Jps.JPS.MarkFixed | Script/JPS.ts:217-219 | the fixed set becomes the old one plus the listed cells |
| Jps.JPS.UnmarkFixed | Script/JPS.ts:226-228 | the fixed set becomes the old one minus the listed cells |
| Jps.JPS.UpdateMap | Script/JPS.ts:214-221 | adds the footprints of the obstacles whose area is at least 2 to the fixed set; smaller ones are skipped |
| Jps.JPS.RemoveFixObstacle | Script/JPS.ts:224-230 | removes the footprints of all the given obstacles from the fixed set, whatever their size |
| Jps.JPS.RemoveAllObstacle | Script/JPS.ts:233-235 | empties the fixed set |
| Jps.JPS.HasObstacle | Script/JPS.ts:589-597 | true exactly when the point's cell is off the map (the caught error) or a fixed obstacle |
| Jps.JPS.IsInClosedList | Script/JPS.ts:114-117 | true for closed and fixed cells; a table cell outside both is clear |
| Jps.JPS.AddToOpenList | Script/JPS.ts:89-111 | fails, changing nothing, off the map; a new cell is scored from the current point and appended to the open list; an open cell is re-parented as `Reparented` says; the search invariant is kept |
| Jps.JPS.Reparent | Script/JPS.ts:93-104 | the table becomes `Reparented` of the old one, and the search invariant is kept |
| Jps.JPS.OpenCell | Script/JPS.ts:105-110 | the cell is scored from the current point and appended to the open list and its set, and the search invariant is kept |
| Jps.JPS.MinFIndex | Script/JPS.ts:122-126 | an index of the open list whose record has the least F |
| Jps.JPS.RemoveMinFFromOpenList | Script/JPS.ts:120-134 | returns no cell exactly when the open list is empty; otherwise removes and returns an open cell of least F, which is neither closed nor fixed and whose parent is closed |
| Jps.JPS.RemoveFromOpenList | Script/JPS.ts:137-141 | fails exactly when the cell is not open; the cell leaves the open set |
| Jps.JPS.AddToClosedList | Script/JPS.ts:144-149 | fails, changing nothing, off the map or on an already closed cell; otherwise adds the cell to the closed set |
| Jps.JPS.Clear | Script/JPS.ts:600-607 | empties the lists and resets the three points, keeping the table and the obstacles |
| Jps.JPS.ForcedNeighbour | Script/JPS.ts:283-317 | at most two forced neighbours, all clear |
| Jps.JPS.ForcedAlongRow | Script/JPS.ts:288-295 | along a row: nothing unless the next cell is clear and a cell above or below is blocked; each diagonal cell ahead is forced exactly when the cell beside it is blocked and it is clear |
| Jps.JPS.ForcedAlongColumn | Script/JPS.ts:296-303 | the same along a column, with left and right |
| Jps.JPS.ForcedDiagonal | Script/JPS.ts:304-316 | on a diagonal, each of the two candidates is forced exactly when the source's three cell tests hold, including the `x - 1` test as written |
| Jps.JPS.ClearOnly | Script/JPS.ts:316 | keeps exactly the clear cells |
| Jps.JPS.ProbeCell | Script/JPS.ts:347-365 | classifies a cursor cell: blocked exactly when not clear; goal exactly when clear and the goal; jump exactly when clear, not the goal, and with a forced neighbour |
| Jps.JPS.ReachGoal | Script/JPS.ts:352-358 | the search is over exactly when the scan started at the current point; otherwise the goal is reported as a jump point |
| Jps.JPS.Emit | Script/JPS.ts:349-365 | what the scan reports for the cell a cursor steps onto: a jump cell is appended; on the goal, it is found exactly when scanning from the current point and otherwise appended as the last report; any other cell adds nothing; every report stays a jump cell or the goal with nothing blocked before it |
| Jps.JPS.Step | Script/JPS.ts:344-366 | the cursor advances one cell and its remaining reach shrinks; it stays active exactly on a clear, non-goal cell, so it stops for good on an obstacle, the edge or the goal; exactly a cell with a forced neighbour is appended, the goal as ReachGoal says, and nothing else; the cursor keeps having passed only clear cells and having reported every jump cell it passed (`Tracked`); every report is a jump cell or the goal on a scanned line with nothing blocked before it |
| Jps.JPS.TrackStep | Script/JPS.ts:344-366 | a cursor that steps onto a clear cell and goes on, or stops on an obstacle, the edge or the goal, keeps the cursor invariant (on its ray, only clear cells passed, every jump cell passed reported) once its new cell is reported when it is a jump cell |
| Jps.JPS.Lane | Script/JPS.ts:367-390 | a stopped cursor, or one in a skipped round, does nothing, so a stopped cursor stays stopped; an active one steps: it stays active exactly on a clear non-goal cell; exactly a jump cell is appended, the goal as ReachGoal says, nothing else; the scan stops exactly on the goal, and the round is skipped exactly when a skipping cursor meets a blocked cell or the edge; the cursor stays `Tracked`, with only clear cells behind it; a goal ahead on a clear line stays ahead unless the scan stopped |
| Jps.JPS.Lanes | Script/JPS.ts:344-438 | the four cursor blocks of a round, up, right, down and left: every cursor stays on its ray with only clear cells behind it, on a clear cell while active and on an obstacle, the edge or the goal once stopped, with every jump cell it passed reported; every report is a jump cell or the goal on a scanned line with nothing blocked before it; a found goal lies on a scanned line with nothing blocked before it; a round that neither stops nor leaves every cursor stopped lowers the remaining reach; a stop reaches the goal; a goal ahead on a clear line stays ahead |
| Jps.JPS.SideLanes | Script/JPS.ts:367-438 | the right, down and left cursor blocks, each skipping the rest of the round when it stops on an obstacle or the edge: the same facts as Lanes for those three cursors, with the up cursor unchanged |
| Jps.JPS.LowerLanes | Script/JPS.ts:391-438 | the down and left cursor blocks after the first two ended with a given flow: the same facts as Lanes for those two cursors; a skip or stop from an earlier block is kept |
| Jps.JPS.LeftLane | Script/JPS.ts:415-438 | the left cursor block after the other three: the same facts as Lanes for that cursor |
| Jps.JPS.CursorsOnGoal | Script/JPS.ts:439-451 | the scan stops exactly when some cursor, stopped or not, stands on the goal; the goal is then found exactly from the current point, with nothing blocked before it on a scanned line, and otherwise is the last report; otherwise nothing changes |
| Jps.JPS.GoalOnCursor | Script/JPS.ts:439-451 | a cursor standing on the goal has a way to it with nothing blocked, on a scanned line or at the point itself, and reporting the goal as ReachGoal says keeps the reports and cursors sound |
| Jps.JPS.Round | Script/JPS.ts:344-452 | every cursor stays on its ray with only clear cells behind it, stopped for good once on an obstacle, the edge or the goal, with every jump cell it passed reported; every report is a jump cell or the goal on a scanned line with nothing blocked before it; a round that neither stops nor ends the scan strictly lowers the cursors' remaining reach; a stop reaches the goal; a round that goes on leaves no cursor on the goal; a goal ahead of a cursor on a clear line stays ahead until the scan stops |
| Jps.JPS.StartCursors | Script/JPS.ts:331-342 | all four cursors start at the point, and each is switched on exactly when some direction of `dirs` has the sign of its axis |
| Jps.JPS.CursorsAtStart | Script/JPS.ts:331-342 | the starting cursors satisfy the cursor invariant, and when the goal lies on a scanned line with every cell up to it clear, an active cursor heads for it |
| Jps.JPS.SearchBase | Script/JPS.ts:329-453 | the scan terminates; the input prefix of jump points is kept; every added report is a table cell on an enabled scan line with every cell between the point and it clear, and is a jump cell (clear, not the goal, with a forced neighbour along its line) or the goal when scanning from another point; `found` only when scanning from the current point, with nothing blocked before the goal; conversely, a goal on an enabled line with every cell up to it clear is found from the current point and otherwise reported; a scan that neither finds nor reports the goal reports every jump cell on the enabled lines |
| Jps.JPS.SweptAll | Script/JPS.ts:344-453 | once every cursor has stopped and none stands on the goal, the goal was not in view of the scan, and every jump cell on the enabled lines was reported |
| Jps.JPS.DiagStep | Script/JPS.ts:463-494 | one step `v2` of the walk: the goal ends the walk, found exactly from the current point and otherwise appended (:463-470); a later step with a forced neighbour is appended and ends the walk (:472-477); otherwise the cardinal scan from `v2` runs, and the walk ends with `Scanned(v2)` and nothing added when that scan or an earlier one found the goal (:480-489), and else `v2` is appended exactly when that scan reported something (:490-492); nothing else is added, and every report is reached by the walk |
| Jps.JPS.WalkStep | Script/JPS.ts:463-504 | one turn of the walk at step `t`: the facts of DiagStep and DiagAdvance combined; a walk that goes on is at step `t + 1`, reached by the walk, and has not met the goal; a walk ended by a forced neighbour does not have the goal in view |
| Jps.JPS.DiagAdvance | Script/JPS.ts:493-504 | moves to the next diagonal cell, which the walk reaches; the walk ends there exactly on the goal, which is found exactly from the current point and otherwise appended (:501); without the goal nothing is added |
| Jps.JPS.OpenBeforeGoal | Script/JPS.ts:461-477 | every step before a goal in view on a diagonal passes the loop test, and, after the first, has no forced neighbour |
| Jps.JPS.StopsShort | Script/JPS.ts:461-477 | a walk that has not met the goal by step `t` and cannot go past step `t` (the loop test fails, or a forced neighbour after the first step) does not have the goal in view |
| Jps.JPS.WalkDiagonal | Script/JPS.ts:458-505 | the walk along one diagonal terminates; every cell it adds is reached by the walk (on the ray from `point` along `dir`, with every earlier step passing the loop test of :461-462) and is clear, or is the goal when not scanning from the current point; a goal met is reached by the walk and found exactly from the current point; a `Scanned` step is clear, reached, and, unless the goal was already found, the current point with the goal Visible from it; a goal in view on the diagonal is never passed by |
| Jps.JPS.EnterStep | Script/JPS.ts:481-488 | a closed cell changes nothing; otherwise it becomes the current point: a new cell is scored from the old current point and appended to the open list, an open cell is re-parented as `Reparented` says; the search invariant is kept |
| Jps.JPS.WalkDiagonals | Script/JPS.ts:456-506 | walks the rays of AllDir in order up to index `last`, stopping at the first walk that ends otherwise than exhausted; every report is reached by a walk on a ray walked; no ray before `last` has the goal in view; an exhausted result means all four rays were walked and no diagonal has the goal in view; a met goal or `Scanned` step is reached by the walk of ray `last`, and a met goal is found exactly from the current point |
| Jps.JPS.Search45 | Script/JPS.ts:455-507 | reports only reportable cells that a diagonal walk from the point reaches, up to the last ray walked; from the current point, a goal in view on a diagonal is found; a found goal is Visible from the current point, which a walk from the point reaches; when the cardinal scan from a diagonal step ends the search, that step is opened (scored when new, re-parented when open) and made current; from a closed current point with the goal not yet found, nothing changes; the search invariant is kept |
| Jps.JPS.CloseCurrent | Script/JPS.ts:541 | the current point joins the closed set and the search invariant is kept |
| Jps.JPS.OpenJumpPoints | Script/JPS.ts:550-554 | the open set grows by exactly the jump points that are not closed, the open list only by appending, and each record becomes what offering the current point makes it (`Offered`): scored from it when new, re-parented when open, unchanged otherwise; the search invariant is kept |
| Jps.JPS.OfferJumpPoint | Script/JPS.ts:551-553 | one jump point that is not closed is offered the current point: it joins the open set, the open list at most gains it at the end, and the records become those `Offered` states; the search invariant is kept |
| Jps.JPS.ScanFrom | Script/JPS.ts:543-545 | the search state is unchanged; the goal is found only when it is Visible from the current point, and is found whenever it is in view (`InView`); otherwise the first `m` jump points lie on the point's row or column with nothing blocked before them, the rest are reached by its diagonal walks, all are clear, none is the goal, and each is Visible from the point; every jump cell on the point's row and column is among the first `m` |
| Jps.JPS.BaseReports | Script/JPS.ts:543 | each report of the row-and-column scan from the current point lies on its row or column with nothing blocked before it, is clear, is not the goal and is Visible from the point; without the goal found, every jump cell on those lines is reported |
| Jps.JPS.StraightInView | Script/JPS.ts:543 | a goal on the row or column of a point, with every cell after the point up to the goal clear, is in view |
| Jps.JPS.Expand | Script/JPS.ts:541-554 | closes exactly the current point, which stays current; a goal in view is found; a found goal is Visible from the current point and nothing else changed; otherwise the jump points are clear, not the goal and Visible from the point, every jump cell on its row and column is among them, the open set grows by exactly those not closed, every record is as `Offered` says, and every parent link stays Visible |
| Jps.JPS.OfferReports | Script/JPS.ts:550-554 | offering the reports, each Visible from the closed current point: the open set grows by exactly those not closed, every record is as `Offered` says, and every parent link of the search stays Visible |
| Jps.JPS.OfferKeepsLinks | Script/JPS.ts:550-554 | offering cells Visible from the current point, with it as their parent, keeps every parent link Visible |
| Jps.JPS.Begin | Script/JPS.ts:526-529 | start and goal set and the start's parent dropped; the search invariant holds |
| Jps.JPS.Next | Script/JPS.ts:556-557 | there is a next point exactly when the open list was non-empty; it leaves the open set and has the least F among the open cells; with none, the open list is empty and there is no current point |
| Jps.JPS.Advance | Script/JPS.ts:541-557 | closes exactly the current point (one more closed cell); a goal in view of it is found; a found goal is Visible from the current point, which stays; otherwise the jump points are clear, not the goal and Visible from it, include every jump cell on its row and column, and each ends closed, open or current; no open cell is lost but the new current one, and there is a new current point of least F exactly unless the open list ran empty; every parent link stays Visible |
| Jps.JPS.Explore | Script/JPS.ts:536-559 | runs between 1 and 667 rounds, closing one cell in each; a goal in view of the first point is found in round 1; a found goal is Visible from the closed current point; otherwise the loop stopped on an empty open list or at round 667; every parent link stays Visible |
| Jps.JPS.Search | Script/JPS.ts:526-570 | `[goal]` when start and goal coincide; `[start, goal]` after one round when the goal is in view of the start; otherwise between 1 and 667 rounds run, and `[]` exactly when the goal was not found, which happens only on an empty open list or at round 667; a non-empty result runs from start to goal through distinct clear cells, each linked to its predecessor as parent, with each step Visible (nothing blocked along its row, column or diagonal walk) |
| Jps.JPS.FindGridPath | Script/JPS.ts:516-571 | `[]` when a point is off the map or the start is an obstacle; `[goal]` when both fall in one cell; `[start, goal]` when the goal's cell is in view of the start's (a clear straight line, see StraightInView, or a walkable diagonal); any other `[]` comes from an empty open list or from round 667; any other non-empty result runs from the start's cell to the goal's through distinct clear cells linked by parents, each step Visible; obstacles are untouched |
| Jps.JPS.WalkParents | Script/JPS.ts:561-568 | following parents from the current point terminates at the start and gives start, ..., current point, goal, with no repetition, clear cells and parent links between neighbours; when every parent link is Visible and so is the last step, every step is Visible; from the start itself it gives `[start, goal]` |
| Jps.JPS.ParentTrail | Script/JPS.ts:561-568 | the parent chain gathered backwards, read in reverse, runs from parent to child through clear, distinct cells, and each step is Visible when every parent link and the last step are |

## Left out

- Floating point: world coordinates are exact reals, so `Math.floor` and `Math.ceil` are exact and rounding error is not modelled.
- The constructor writes the shifted origin back into the caller's `mapData` object. The model keeps the origin in its own constants and does not model that aliasing.
- The generic constructor parameter `ctor` of `gridPositionConvertGameObjectPosition` is left out: the model always builds a `Point`.
- `cloneV2` and `getKey` are left out: cells are values, so copies and string keys are not needed.
- The terrain value `K`, `lands` and `PathPointData`'s `x`/`y` fields are left out: K never enters F (the line that adds it is commented out), and a record's position is its key in the table.
- `formatToMapData` is left out: it is a static helper that copies a rectangle and negates its angle, and the search never calls it.
- `autoAddPathPoint` is left out: it is never called, and it is the only reader of `model`.
- The exception raised by `getKey` inside `hasObstacle` is modelled as its effect: an off-map point reports an obstacle.
- `GameObject` arguments to `findGridPath` are taken as their position (`Point`): only `x` and `y` are read there.
- Jps.JPS.RemoveMinFFromOpenList: does not state the order of the remaining open list. The source sorts the list by descending F before popping. Which of several least-F cells it then returns depends on the engine's sort; the model returns the first least-F cell in list order and keeps the others in their order.
- Jps.JPS.SearchBase: states that every jump cell on the enabled lines is reported only for a scan that neither finds nor reports the goal. A scan that stops at the goal ends early by design (lines 439-452), so the cells beyond it are not promised.
- Jps.JPS.Search45: states soundness of the reports and that a goal in view on a diagonal is found from the current point. It does not state that every diagonal jump point is reported. That would need the completeness of the one-direction cardinal scan at every step of all four walks, which the model does not carry through the walk loop.
- Jps.JPS.Expand: states completeness only for the jump cells on the current point's row and column, for the reason given for Search45.
- Jps.JPS.Advance: states completeness only for the jump cells on the current point's row and column, for the reason given for Search45.
- Jps.JPS.FindGridPath: states that a goal in view of the start gives `[start, goal]`. It does not state that a path is found whenever one exists; the source does not achieve that either: the round cap of line 558 ends long searches, and the quirks listed above change which cells become jump points. It does state why an empty result comes back.
- Calling `searchBase` or `search45` with no current point makes the source throw a `TypeError`, but only when the scan meets the goal: the comparisons with `nowPoint` at lines 352, 376, 400, 424, 441, 464 and 497 run only on the goal cell. The model's scan methods require a current point, which also excludes such calls that would complete without meeting the goal. `findGridPath` never makes a call without a current point, and every caller in the model has one.
- A cell size of 0 is excluded by a precondition of the constructor. With it, the source loops forever on `Math.ceil(Infinity)` when the width is positive (line 163), and otherwise builds an empty table.

=== FILE: cells.dfy ===
/** Values shared by the jump point search: grid cells, world points, the
    per-cell search record, and the cost formulas G, H and F of Script/JPS.ts. */
module Cells {

  datatype Option<+T> = None | Some(value: T)

  /** A grid cell. The source keys every table by the string "x_y" built from
      such a pair (getKey); here the pair itself is the key. The scans also use
      cells as direction vectors, as the source does with its Vector2. */
  datatype Cell = Cell(x: int, y: int)

  /** A point in world coordinates. */
  datatype Point = Point(x: real, y: real)

  /** A rectangle placed in the world: position, size, anchor fractions and
      rotation in degrees. Both the map and the obstacles are described so. */
  datatype GameObject = GameObject(x: real, y: real, width: real, height: real,
                                   anchorX: real, anchorY: real, angle: real)

  /** Search mode: `Normal` (orthogonal) or `Tilt` (with diagonals). */
  datatype Model = Normal | Tilt

  /** The record the source keeps for every cell: cost from the start (G),
      estimate to the goal (H), their sum (F) and the parent cell. */
  datatype PathPoint = PathPoint(G: int, H: int, F: int, parent: Option<Cell>)

  /** A record as the constructor creates it. */
  const Blank := PathPoint(0, 0, 0, None)

  function Abs(n: int): nat { if n < 0 then -n else n }

  function Min(a: int, b: int): int { if a <= b then a else b }

  /** Math.ceil on exact reals. */
  function Ceil(r: real): (n: int)
    ensures r <= n as real < r + 1.0
  {
    -((-r).Floor)
  }

  /** Increment of G for a move from `from` to `to`: 10 per unit of difference
      on each axis, so a diagonal step costs 20, not 14. */
  function StepCost(from: Cell, to: Cell): nat
  {
    10 * Abs(to.x - from.x) + 10 * Abs(to.y - from.y)
  }

  /** H: ten times the Manhattan distance to the goal. */
  function Heuristic(c: Cell, target: Cell): nat
  {
    10 * Abs(target.x - c.x) + 10 * Abs(target.y - c.y)
  }

  /** The record of `c` once `parent` is made its parent and F is recomputed:
      G = parent.G + StepCost, H = Heuristic, F = G + H. */
  function Scored(m: map<Cell, PathPoint>, c: Cell, parent: Cell, target: Cell): PathPoint
    requires parent in m
  {
    var g := m[parent].G + StepCost(parent, c);
    var h := Heuristic(c, target);
    PathPoint(g, h, g + h, Some(parent))
  }

  /** The table after an already-open cell `c` is offered `now` as its parent:
      the new parent is kept unless it makes F strictly greater, in which case
      the old parent is put back and F recomputed from it. */
  function Reparented(m: map<Cell, PathPoint>, c: Cell, now: Cell, target: Cell): map<Cell, PathPoint>
    requires c in m && now in m
    requires m[c].parent.Some? && m[c].parent.value in m
  {
    var oldParent := m[c].parent.value;
    var m1 := m[c := Scored(m, c, now, target)];
    if m1[c].F > m[c].F then m1[c := Scored(m1, c, oldParent, target)] else m1
  }

  /** The heuristic is consistent with the step cost: H never drops by more
      than the cost of the step. */
  lemma HeuristicConsistent(p: Cell, c: Cell, target: Cell)
    ensures Heuristic(p, target) <= StepCost(p, c) + Heuristic(c, target)
  {
  }

  /** Hence F never decreases from a parent to the child it scores. */
  lemma ScoredFNotBelowParent(m: map<Cell, PathPoint>, c: Cell, parent: Cell, target: Cell)
    requires parent in m && m[parent].F == m[parent].G + Heuristic(parent, target)
    ensures Scored(m, c, parent, target).F >= m[parent].F
  {
    HeuristicConsistent(parent, c, target);
  }

  /** Offering a parent to an open cell whose record is up to date leaves it
      with the smaller of the two F values, keeps the new parent on a tie, and
      changes no other record. */
  lemma ReparentKeepsCheaper(m: map<Cell, PathPoint>, c: Cell, now: Cell, target: Cell)
    requires c in m && now in m
    requires m[c].parent.Some? && m[c].parent.value in m && m[c].parent.value != c
    requires m[c] == Scored(m, c, m[c].parent.value, target)
    ensures var r := Reparented(m, c, now, target);
            var cand := Scored(m, c, now, target);
            && r.Keys == m.Keys
            && r[c].F == Min(m[c].F, cand.F)
            && r[c].parent == (if cand.F > m[c].F then m[c].parent else Some(now))
            && (forall d :: d in m && d != c ==> r[d] == m[d])
  {
    var cand := Scored(m, c, now, target);
    var m1 := m[c := cand];
    if cand.F > m[c].F {
      var q := m[c].parent.value;
      assert m1[q] == m[q];
      assert Scored(m1, c, q, target) == m[c];
    }
  }

  /** Offering an open cell the same parent a second time, in a table `m'`
      that holds the outcome of the first offer for `c` and agrees with `m`
      on the offered and the previous parent, leaves its record as it is. */
  lemma ReparentTwice(m: map<Cell, PathPoint>, m': map<Cell, PathPoint>, c: Cell, now: Cell, target: Cell)
    requires c in m && now in m && c != now
    requires m[c].parent.Some? && m[c].parent.value in m && m[c].parent.value != c
    requires m[c] == Scored(m, c, m[c].parent.value, target)
    requires c in m' && now in m' && m'[now] == m[now] && m[c].parent.value in m'
    requires m'[m[c].parent.value] == m[m[c].parent.value]
    requires m'[c] == Reparented(m, c, now, target)[c]
    ensures m'[c].parent.Some? && m'[c].parent.value in m'
    ensures Reparented(m', c, now, target)[c] == m'[c]
  {
  }
}

=== FILE: jps.dfy ===
/** The jump point search of Script/JPS.ts: one `JPS` object per map holds the
    cell table, the fixed obstacles and the state of the current search. */
module Jps {
  import opened Cells

  /** Descriptor of the map: its rectangle in the world, the edge of a cell and
      the optional search limit. */
  datatype MapData = MapData(area: GameObject, gridLength: real, searchLimit: Option<int>)

  /** The lower-left cell of an obstacle's bounding box and the number of
      columns (w) and rows (h) it spans. */
  datatype Span = Span(lo: Cell, w: int, h: int)

  /** One of the four cursors of the cardinal scan (the `ptr` records):
      `active` is the source's state 0, a cursor that still advances. */
  datatype Cursor = Cursor(pos: Cell, active: bool)

  type NonZeroReal = r: real | r != 0.0 witness 1.0

  /** The loop cap of findGridPath. */
  const MaxRounds := 666

  function Area(o: GameObject): real { o.width * o.height }

  predicate EnablesUp(dirs: seq<Cell>) { exists i :: 0 <= i < |dirs| && dirs[i].y == 1 }
  predicate EnablesRight(dirs: seq<Cell>) { exists i :: 0 <= i < |dirs| && dirs[i].x == 1 }
  predicate EnablesDown(dirs: seq<Cell>) { exists i :: 0 <= i < |dirs| && dirs[i].y == -1 }
  predicate EnablesLeft(dirs: seq<Cell>) { exists i :: 0 <= i < |dirs| && dirs[i].x == -1 }

  /** `e` lies strictly beyond `point` on its row or column, in a direction
      that `dirs` switches on. */
  predicate OnScanLine(point: Cell, e: Cell, dirs: seq<Cell>)
  {
    || (e.x == point.x && e.y > point.y && EnablesUp(dirs))
    || (e.y == point.y && e.x > point.x && EnablesRight(dirs))
    || (e.x == point.x && e.y < point.y && EnablesDown(dirs))
    || (e.y == point.y && e.x < point.x && EnablesLeft(dirs))
  }

  /** The directions the search loop scans with: together they switch on all
      four cursors of the cardinal scan. */
  const RowAndColumn := [Cell(1, 1), Cell(-1, -1)]

  /** `c` lies after `point` and no further than `e` on the row or column
      they share. */
  predicate Between(point: Cell, e: Cell, c: Cell)
  {
    || (c.x == point.x == e.x && (point.y < c.y <= e.y || e.y <= c.y < point.y))
    || (c.y == point.y == e.y && (point.x < c.x <= e.x || e.x <= c.x < point.x))
  }

  /** How a walk along one diagonal ended: it ran out (or stopped at a jump
      point), it met the goal (`found` when from the current point), or the
      cardinal scan from cell `v` ended the search. */
  datatype Walk = Exhausted | MetGoal(found: bool) | Scanned(v: Cell)

  /** The four diagonal directions, in the order the diagonal scan walks them. */
  const AllDir := [Cell(1, 1), Cell(1, -1), Cell(-1, -1), Cell(-1, 1)]

  /** `e` lies on the diagonal ray from `point` along the unit diagonal
      `dir`, `point` itself included. */
  predicate OnDiagRay(point: Cell, e: Cell, dir: Cell)
  {
    var t := if dir.x == 1 then e.x - point.x else point.x - e.x;
    t >= 0 && e.y == point.y + (if dir.y == 1 then t else -t)
  }

  /** The cell `t` diagonal steps from `point` along the unit diagonal `dir`. */
  function DiagCell(point: Cell, dir: Cell, t: nat): (c: Cell)
    ensures OnDiagRay(point, c, dir) && Abs(c.x - point.x) == t
  {
    var d: int := t;
    Cell(point.x + (if dir.x == 1 then d else -d), point.y + (if dir.y == 1 then d else -d))
  }

  predicate InSpan(sp: Span, c: Cell)
  {
    sp.lo.x <= c.x < sp.lo.x + sp.w && sp.lo.y <= c.y < sp.lo.y + sp.h
  }

  /** How a round of the cardinal scan goes on after a cursor's block. */
  datatype Flow = Go | Skip | Stop

  /** What a scanning cursor finds on the cell it steps onto: an obstacle or
      the edge of the map, the goal, a cell with a forced neighbour, or none
      of these. */
  datatype Probe = Blocked | Goal | Jump | Pass

  /** A cursor moving by the unit vector `d` from `point` lies on that ray;
      it has left `point`, or may still move, only when `dirs` switches its
      direction on. */
  predicate OnRay(c: Cursor, point: Cell, d: Cell, dirs: seq<Cell>)
  {
    if d == Cell(0, 1) then
      c.pos.x == point.x && c.pos.y >= point.y && ((c.active || c.pos.y > point.y) ==> EnablesUp(dirs))
    else if d == Cell(1, 0) then
      c.pos.y == point.y && c.pos.x >= point.x && ((c.active || c.pos.x > point.x) ==> EnablesRight(dirs))
    else if d == Cell(0, -1) then
      c.pos.x == point.x && c.pos.y <= point.y && ((c.active || c.pos.y < point.y) ==> EnablesDown(dirs))
    else
      && d == Cell(-1, 0)
      && c.pos.y == point.y && c.pos.x <= point.x && ((c.active || c.pos.x < point.x) ==> EnablesLeft(dirs))
  }

  /** Cursor `c` still moves, and `g` lies strictly ahead of it along `d`. */
  predicate Toward(c: Cursor, d: Cell, g: Cell)
  {
    && c.active
    && (|| (d == Cell(0, 1) && g.x == c.pos.x && g.y > c.pos.y)
        || (d == Cell(1, 0) && g.y == c.pos.y && g.x > c.pos.x)
        || (d == Cell(0, -1) && g.x == c.pos.x && g.y < c.pos.y)
        || (d == Cell(-1, 0) && g.y == c.pos.y && g.x < c.pos.x))
  }

  /** One of the four cursors still heads for `g`. */
  predicate GoalAhead(up: Cursor, right: Cursor, down: Cursor, left: Cursor, g: Cell)
  {
    || Toward(up, Cell(0, 1), g) || Toward(right, Cell(1, 0), g)
    || Toward(down, Cell(0, -1), g) || Toward(left, Cell(-1, 0), g)
  }

  /** The unit step from `point` toward `e` along their row or column. */
  function Heading(point: Cell, e: Cell): Cell
  {
    if e.x == point.x then (if e.y > point.y then Cell(0, 1) else Cell(0, -1))
    else if e.x > point.x then Cell(1, 0) else Cell(-1, 0)
  }

  /** The cell one step back from `e` toward `point` on their row or column. */
  function Back(point: Cell, e: Cell): Cell
  {
    var h := Heading(point, e);
    Cell(e.x - h.x, e.y - h.y)
  }

  /** `dirs` switches on the cursor that moves along `d`. */
  predicate Enables(d: Cell, dirs: seq<Cell>)
  {
    if d == Cell(0, 1) then EnablesUp(dirs)
    else if d == Cell(1, 0) then EnablesRight(dirs)
    else if d == Cell(0, -1) then EnablesDown(dirs)
    else EnablesLeft(dirs)
  }

  /** A cell on a row or column, apart from `point`, lies on a scan line of
      RowAndColumn. */
  lemma RowAndColumnScan(point: Cell, e: Cell)
    requires (e.x == point.x || e.y == point.y) && e != point
    ensures OnScanLine(point, e, RowAndColumn)
  {
    assert RowAndColumn[0].x == 1 && RowAndColumn[0].y == 1;
    assert RowAndColumn[1].x == -1 && RowAndColumn[1].y == -1;
  }

  /** A cursor on its ray is at the origin or on a scanned line. */
  lemma RayHit(c: Cursor, point: Cell, d: Cell, dirs: seq<Cell>)
    requires OnRay(c, point, d, dirs)
    ensures c.pos == point || OnScanLine(point, c.pos, dirs)
  {
  }

  /** A cursor's share of the scan's termination measure, given the cells
      left before the edge of the map. */
  function Room(n: int): nat { if n > 0 then n + 1 else 1 }

  function Reversed<T>(s: seq<T>): (r: seq<T>)
    ensures |r| == |s| && forall i :: 0 <= i < |s| ==> r[i] == s[|s| - 1 - i]
  {
    if s == [] then [] else Reversed(s[1..]) + [s[0]]
  }

  /** Removing the element at `k` from a list without repetitions. */
  lemma {:induction false} RemoveAt(s: seq<Cell>, k: nat)
    requires k < |s|
    requires forall i, j :: 0 <= i < j < |s| ==> s[i] != s[j]
    ensures var t := s[..k] + s[k + 1..];
            && |t| == |s| - 1
            && (forall c :: c in t <==> c in s && c != s[k])
            && (forall i, j :: 0 <= i < j < |t| ==> t[i] != t[j])
  {
    var t := s[..k] + s[k + 1..];
    assert forall i :: 0 <= i < |t| ==> t[i] == s[if i < k then i else i + 1];
    forall c | c in s && c != s[k] ensures c in t {
      var i :| 0 <= i < |s| && s[i] == c;
      assert t[if i < k then i else i - 1] == c;
    }
  }

  // ------------------------------------------------ invariant of a search

  /** The start is a free cell without parent that is never open; once
      anything is closed, the start is. */
  ghost predicate StartOK(m: map<Cell, PathPoint>, open: set<Cell>, fixed: set<Cell>,
                          closed: set<Cell>, start: Cell)
  {
    && start in m && start !in fixed && m[start].parent == None && start !in open
    && (start in closed || (closed == {} && open == {}))
  }

  /** `rank` numbers the closed cells, all below `nextRank`. */
  ghost predicate RankOK(rank: map<Cell, nat>, nextRank: nat, closed: set<Cell>)
  {
    && (forall c :: c in closed <==> c in rank)
    && (forall c :: c in rank ==> rank[c] < nextRank)
  }

  /** Every open cell is free, not closed, and scored from a closed parent. */
  ghost predicate OpenOK(m: map<Cell, PathPoint>, open: set<Cell>, closed: set<Cell>,
                         fixed: set<Cell>, target: Cell)
  {
    forall c {:trigger c in open} :: c in open ==>
      && c in m && c !in closed && c !in fixed
      && m[c].parent.Some? && m[c].parent.value in closed && m[c].parent.value in m
      && m[c] == Scored(m, c, m[c].parent.value, target)
  }

  /** Membership in the closed set, named so that TreeOK is only applied to
      the cells a proof asks about (its body mentions closed cells itself). */
  ghost predicate Closed(closed: set<Cell>, c: Cell) { c in closed }

  /** Every closed cell is free, and all but the start have a parent that was
      closed before them. */
  ghost predicate TreeOK(m: map<Cell, PathPoint>, closed: set<Cell>, fixed: set<Cell>,
                         start: Cell, rank: map<Cell, nat>)
  {
    forall c {:trigger Closed(closed, c)} :: Closed(closed, c) ==>
      && c in m && c !in fixed && c in rank
      && (c != start ==>
            && m[c].parent.Some? && m[c].parent.value in closed
            && m[c].parent.value in rank && rank[m[c].parent.value] < rank[c])
  }

  /** Opening a new cell from a closed parent keeps the invariant of the
      search. */
  lemma OpenNew(m: map<Cell, PathPoint>, open: set<Cell>, fixed: set<Cell>, closed: set<Cell>,
                start: Cell, target: Cell, rank: map<Cell, nat>, v2: Cell, now: Cell)
    requires StartOK(m, open, fixed, closed, start) && OpenOK(m, open, closed, fixed, target)
    requires TreeOK(m, closed, fixed, start, rank)
    requires v2 in m && v2 !in closed && v2 !in fixed && now in closed && now in m
    ensures var m' := m[v2 := Scored(m, v2, now, target)];
            && StartOK(m', open + {v2}, fixed, closed, start)
            && OpenOK(m', open + {v2}, closed, fixed, target)
            && TreeOK(m', closed, fixed, start, rank)
  {
    var m' := m[v2 := Scored(m, v2, now, target)];
    forall c | c in open + {v2}
      ensures && c in m' && c !in closed && c !in fixed
              && m'[c].parent.Some? && m'[c].parent.value in closed && m'[c].parent.value in m'
              && m'[c] == Scored(m', c, m'[c].parent.value, target)
    {
      if c != v2 {
        assert m'[m[c].parent.value] == m[m[c].parent.value];
      }
    }
  }

  /** Re-parenting an open cell from a closed cell keeps the invariant of the
      search, and changes no record but that cell's. */
  lemma Reopen(m: map<Cell, PathPoint>, open: set<Cell>, fixed: set<Cell>, closed: set<Cell>,
               start: Cell, target: Cell, rank: map<Cell, nat>, v2: Cell, now: Cell)
    requires StartOK(m, open, fixed, closed, start) && OpenOK(m, open, closed, fixed, target)
    requires TreeOK(m, closed, fixed, start, rank)
    requires v2 in open && now in closed && now in m
    ensures var r := Reparented(m, v2, now, target);
            && r.Keys == m.Keys
            && (forall c :: c in m && c != v2 ==> r[c] == m[c])
            && StartOK(r, open, fixed, closed, start)
            && OpenOK(r, open, closed, fixed, target)
            && TreeOK(r, closed, fixed, start, rank)
  {
    var r := Reparented(m, v2, now, target);
    var q := m[v2].parent.value;
    var m1 := m[v2 := Scored(m, v2, now, target)];
    assert m1[q] == m[q] && m1[now] == m[now];
    assert r[v2] == Scored(r, v2, r[v2].parent.value, target);
    forall c | c in open
      ensures && c in r && c !in closed && c !in fixed
              && r[c].parent.Some? && r[c].parent.value in closed && r[c].parent.value in r
              && r[c] == Scored(r, c, r[c].parent.value, target)
    {
      if c != v2 {
        assert r[m[c].parent.value] == m[m[c].parent.value];
      }
    }
  }

  /** Closing the current point, an unclosed free cell that is the start when
      nothing is closed yet and otherwise has a closed parent, keeps the
      invariant of the search. */
  lemma Close(m: map<Cell, PathPoint>, open: set<Cell>, fixed: set<Cell>, closed: set<Cell>,
              start: Cell, target: Cell, rank: map<Cell, nat>, nextRank: nat, n: Cell)
    requires StartOK(m, open, fixed, closed, start) && RankOK(rank, nextRank, closed)
    requires OpenOK(m, open, closed, fixed, target) && TreeOK(m, closed, fixed, start, rank)
    requires n in m && n !in closed && n !in open && n !in fixed
    requires if closed == {} then n == start
             else n != start && m[n].parent.Some? && m[n].parent.value in closed
    ensures StartOK(m, open, fixed, closed + {n}, start)
    ensures RankOK(rank[n := nextRank], nextRank + 1, closed + {n})
    ensures OpenOK(m, open, closed + {n}, fixed, target)
    ensures TreeOK(m, closed + {n}, fixed, start, rank[n := nextRank])
  {
    forall c | c in closed
      ensures Closed(closed, c)
    {
    }
  }

  /** The cells of `js` that are not closed. */
  ghost function Unclosed(js: seq<Cell>, closed: set<Cell>): set<Cell>
  {
    set c | c in js && c !in closed
  }

  /** One more cell adds itself to the unclosed ones unless it is closed. */
  lemma UnclosedSnoc(js: seq<Cell>, j: Cell, closed: set<Cell>)
    ensures Unclosed(js + [j], closed) == if j in closed then Unclosed(js, closed) else Unclosed(js, closed) + {j}
  {
    assert forall c :: c in js + [j] <==> c in js || c == j;
  }

  /** The record of `c` once the cells `offered` have been offered to the open
      list with `n` as parent: a new one is scored from `n`, an open one is
      re-parented as Reparented says, and any other keeps its record. */
  ghost function Offered(m: map<Cell, PathPoint>, open: set<Cell>, offered: set<Cell>,
                         n: Cell, target: Cell, c: Cell): PathPoint
    requires c in m && n in m
    requires c in open ==> m[c].parent.Some? && m[c].parent.value in m
  {
    if c !in offered then m[c]
    else if c in open then Reparented(m, c, n, target)[c]
    else Scored(m, c, n, target)
  }

  /** An offered record keeps its parent or takes `n`; a record that is
      not offered keeps its parent. */
  lemma OfferedParent(m: map<Cell, PathPoint>, open: set<Cell>, offered: set<Cell>,
                      n: Cell, target: Cell, c: Cell)
    requires c in m && n in m
    requires c in open ==> m[c].parent.Some? && m[c].parent.value in m
    ensures var p := Offered(m, open, offered, n, target, c).parent;
            && (c !in offered ==> p == m[c].parent)
            && (c in offered ==> p == Some(n) || (c in open && p == m[c].parent))
  {
  }

  /** Offering `j` the parent `n` after the cells `done` were, in a table
      `cur` that holds their outcome, gives the outcome of offering `done`
      and `j`: a new cell is scored from `n`, an open one re-parented. */
  lemma OfferOne(m0: map<Cell, PathPoint>, open0: set<Cell>, done: set<Cell>, cur: map<Cell, PathPoint>,
                 j: Cell, n: Cell, target: Cell)
    requires m0.Keys == cur.Keys && j in m0 && n in m0 && j != n && n !in done
    requires forall c :: c in open0 ==> c in m0 && m0[c].parent.Some? && m0[c].parent.value in m0
    requires j in open0 ==> && m0[j].parent.value != j && m0[j].parent.value !in done
                            && m0[j] == Scored(m0, j, m0[j].parent.value, target)
    requires forall c :: c in m0 ==> cur[c] == Offered(m0, open0, done, n, target, c)
    requires j in open0 + done ==> cur[j].parent.Some? && cur[j].parent.value in cur
    ensures var r := if j in open0 + done then Reparented(cur, j, n, target)
                     else cur[j := Scored(cur, j, n, target)];
            && r.Keys == m0.Keys
            && forall c :: c in m0 ==> r[c] == Offered(m0, open0, done + {j}, n, target, c)
  {
    if j in open0 && j in done {
      ReparentTwice(m0, cur, j, n, target);
    }
  }

  /** A table of blank records for the cells [0, cols) x [0, rows), built
      column by column. */
  method BlankTable(cols: int, rows: int) returns (table: map<Cell, PathPoint>)
    ensures forall c :: c in table <==> 0 <= c.x < cols && 0 <= c.y < rows
    ensures forall c :: c in table ==> table[c] == Blank
  {
    table := map[];
    var i := 0;
    while i < cols
      invariant 0 <= i && (i <= cols || i == 0)
      invariant forall c :: c in table <==> 0 <= c.x < i && 0 <= c.y < rows
      invariant forall c :: c in table ==> table[c] == Blank
    {
      var j := 0;
      while j < rows
        invariant 0 <= j && (j <= rows || j == 0)
        invariant forall c :: c in table <==> (0 <= c.x < i && 0 <= c.y < rows) || (c.x == i && 0 <= c.y < j)
        invariant forall c :: c in table ==> table[c] == Blank
      {
        table := table[Cell(i, j) := Blank];
        j := j + 1;
      }
      i := i + 1;
    }
  }

  class JPS {
    /** World position of the corner of cell (0, 0). */
    const originX: real
    const originY: real
    /** Edge of a square cell. */
    const gridLength: NonZeroReal
    /** The table covers the cells [0, cols) x [0, rows). */
    const cols: int
    const rows: int
    /** Stored by the constructor and never read. */
    const searchLimit: int

    var model: Model
    /** One record per cell of the table. */
    var mapTable: map<Cell, PathPoint>
    var openList: seq<Cell>
    var openListMap: set<Cell>
    var fixClosedListMap: set<Cell>
    var closedListMap: set<Cell>
    var bronPoint: Option<Cell>
    var targetPoint: Option<Cell>
    var nowPoint: Option<Cell>
    var hasFindTarget: bool

    /** Order in which the cells of the current search were closed. */
    ghost var rank: map<Cell, nat>
    ghost var nextRank: nat

    predicate InMap(c: Cell) { 0 <= c.x < cols && 0 <= c.y < rows }

    /** The object invariant: the table covers exactly the map, the open list
        and its lookup set agree and hold no repetition, and every open cell
        has a parent in the table. */
    ghost predicate Valid()
      reads this`mapTable, this`openList, this`openListMap, this`nowPoint, this`targetPoint
    {
      && (forall c :: c in mapTable <==> InMap(c))
      && (forall c :: c in openListMap <==> c in openList)
      && (forall i, j :: 0 <= i < j < |openList| ==> openList[i] != openList[j])
      && (forall c :: c in openListMap ==>
            c in mapTable && mapTable[c].parent.Some? && mapTable[c].parent.value in mapTable)
      && (nowPoint.Some? ==> InMap(nowPoint.value))
      && (targetPoint.Some? ==> InMap(targetPoint.value))
    }

    /** What holds while a search runs (see StartOK, RankOK, OpenOK, TreeOK). */
    ghost predicate SearchInv()
      reads this`mapTable, this`openList, this`openListMap, this`fixClosedListMap,
            this`closedListMap, this`bronPoint, this`targetPoint, this`nowPoint,
            this`rank, this`nextRank
    {
      && Valid() && bronPoint.Some? && targetPoint.Some?
      && StartOK(mapTable, openListMap, fixClosedListMap, closedListMap, bronPoint.value)
      && RankOK(rank, nextRank, closedListMap)
      && OpenOK(mapTable, openListMap, closedListMap, fixClosedListMap, targetPoint.value)
      && TreeOK(mapTable, closedListMap, fixClosedListMap, bronPoint.value, rank)
    }

    /** Position of a cell in the closing order; cells not closed come last. */
    ghost function Order(c: Cell): nat
      reads this`closedListMap, this`rank, this`nextRank
      requires RankOK(rank, nextRank, closedListMap)
    {
      if c in closedListMap then rank[c] else nextRank
    }

    // ---------------------------------------------------------------- grid

    /** Builds the table of ceil(width / gridLength) x ceil(height / gridLength)
        blank records, with the origin moved to the map's lower-left corner,
        then marks the given obstacles. */
    constructor (mapData: MapData, obstacles: seq<GameObject>)
      requires mapData.gridLength != 0.0
      ensures Valid()
      ensures originX == mapData.area.x - mapData.area.width * mapData.area.anchorX
      ensures originY == mapData.area.y - mapData.area.height * mapData.area.anchorY
      ensures gridLength == mapData.gridLength
      ensures forall c :: c in mapTable <==>
                0 <= c.x < Ceil(mapData.area.width / mapData.gridLength) &&
                0 <= c.y < Ceil(mapData.area.height / mapData.gridLength)
      ensures forall c :: c in mapTable ==> mapTable[c] == Blank
      ensures searchLimit == if mapData.searchLimit.Some? && mapData.searchLimit.value > 0
                             then mapData.searchLimit.value else 688
      ensures fixClosedListMap == Covered(obstacles)
      ensures openList == [] && openListMap == {} && closedListMap == {}
      ensures bronPoint == None && targetPoint == None && nowPoint == None && !hasFindTarget
    {
      searchLimit := if mapData.searchLimit.Some? && mapData.searchLimit.value > 0
                     then mapData.searchLimit.value else 688;
      var area := mapData.area;
      originX := area.x - area.width * area.anchorX;
      originY := area.y - area.height * area.anchorY;
      gridLength := mapData.gridLength;
      var i1 := Ceil(area.width / mapData.gridLength);
      var j1 := Ceil(area.height / mapData.gridLength);
      var table := BlankTable(i1, j1);
      cols, rows := i1, j1;
      mapTable := table;
      model := Tilt;
      openList, openListMap, fixClosedListMap, closedListMap := [], {}, {}, {};
      bronPoint, targetPoint, nowPoint := None, None, None;
      hasFindTarget := false;
      rank, nextRank := map[], 0;
      new;
      UpdateMap(obstacles);
    }

    /** The cell containing a world point, floored; it may lie off the map. */
    function GetGridPositionRaw(v2: Point): Cell
    {
      Cell(((v2.x - originX) / gridLength).Floor, ((v2.y - originY) / gridLength).Floor)
    }

    /** The table cell containing a world point, if there is one. */
    function GetGridPosition(v2: Point): (r: Option<Cell>)
      ensures r.Some? <==> InMap(GetGridPositionRaw(v2))
      ensures r.Some? ==> r.value == GetGridPositionRaw(v2)
    {
      var c := GetGridPositionRaw(v2);
      if InMap(c) then Some(c) else None
    }

    /** World position of a cell, offset inside it by `anchor` cell fractions. */
    function CellToWorld(position: Cell, anchor: Point): Point
    {
      Point(position.x as real * gridLength + originX + gridLength * anchor.x,
            position.y as real * gridLength + originY + gridLength * anchor.y)
    }

    /** Converting a cell to the world and flooring back gives the same cell,
        whenever the anchor lies inside the cell. */
    lemma RawOfCellToWorld(position: Cell, anchor: Point)
      requires 0.0 <= anchor.x < 1.0 && 0.0 <= anchor.y < 1.0
      ensures GetGridPositionRaw(CellToWorld(position, anchor)) == position
    {
      var g: real := gridLength;
      var w := CellToWorld(position, anchor);
      assert w.x - originX == (position.x as real + anchor.x) * g;
      assert (w.x - originX) / g == position.x as real + anchor.x;
      assert w.y - originY == (position.y as real + anchor.y) * g;
      assert (w.y - originY) / g == position.y as real + anchor.y;
    }

    /** Converts grid cells to world points. */
    method GridPositionConvertGameObjectPosition(positions: seq<Cell>, anchor: Point) returns (res: seq<Point>)
      ensures |res| == |positions|
      ensures forall i :: 0 <= i < |positions| ==> res[i] == CellToWorld(positions[i], anchor)
      ensures 0.0 <= anchor.x < 1.0 && 0.0 <= anchor.y < 1.0 ==>
                forall i :: 0 <= i < |positions| ==> GetGridPositionRaw(res[i]) == positions[i]
    {
      res := [];
      for k := 0 to |positions|
        invariant |res| == k
        invariant forall i :: 0 <= i < k ==> res[i] == CellToWorld(positions[i], anchor)
        invariant 0.0 <= anchor.x < 1.0 && 0.0 <= anchor.y < 1.0 ==>
                    forall i :: 0 <= i < k ==> GetGridPositionRaw(res[i]) == positions[i]
      {
        var p := CellToWorld(positions[k], anchor);
        if 0.0 <= anchor.x < 1.0 && 0.0 <= anchor.y < 1.0 {
          RawOfCellToWorld(positions[k], anchor);
        }
        res := res + [p];
      }
    }

    /** The bounding box of an obstacle in cells; a rotation of -90 or -270
        degrees swaps its width and height. */
    function Raster(o: GameObject): Span
    {
      var width := if o.angle == -90.0 || o.angle == -270.0 then o.height else o.width;
      var height := if o.angle == -90.0 || o.angle == -270.0 then o.width else o.height;
      var minX := o.x - width * o.anchorX;
      var maxX := o.x + width * (1.0 - o.anchorX);
      var minY := o.y - height * o.anchorY;
      var maxY := o.y + height * (1.0 - o.anchorY);
      var lo := GetGridPositionRaw(Point(minX, minY));
      Span(lo, GetGridPositionRaw(Point(maxX, minY)).x - lo.x + 1,
               GetGridPositionRaw(Point(minX, maxY)).y - lo.y + 1)
    }

    predicate Covers(o: GameObject, c: Cell)
    {
      InSpan(Raster(o), c) && InMap(c)
    }

    /** The table cells in an obstacle's bounding box. */
    ghost function Footprint(o: GameObject): (s: set<Cell>)
      ensures forall c :: c in s <==> Covers(o, c)
    {
      var sp := Raster(o);
      var s := set i, j | sp.lo.x <= i < sp.lo.x + sp.w && sp.lo.y <= j < sp.lo.y + sp.h && InMap(Cell(i, j)) :: Cell(i, j);
      assert forall c :: Covers(o, c) ==> c in s by {
        forall c | Covers(o, c) ensures c in s {
          assert c == Cell(c.x, c.y);
        }
      }
      s
    }

    /** The cells that marking `os` blocks: the footprints of the obstacles
        whose area is at least 2. */
    ghost function Covered(os: seq<GameObject>): set<Cell>
    {
      if os == [] then {}
      else Covered(os[..|os| - 1]) + (if Area(os[|os| - 1]) < 2.0 then {} else Footprint(os[|os| - 1]))
    }

    /** The footprints of all of `os`, whatever their size. */
    ghost function Footprints(os: seq<GameObject>): set<Cell>
    {
      if os == [] then {} else Footprints(os[..|os| - 1]) + Footprint(os[|os| - 1])
    }

    lemma CoveredStep(os: seq<GameObject>, k: nat)
      requires k < |os|
      ensures Covered(os[..k + 1]) ==
              Covered(os[..k]) + (if Area(os[k]) < 2.0 then {} else Footprint(os[k]))
      ensures Footprints(os[..k + 1]) == Footprints(os[..k]) + Footprint(os[k])
    {
      assert os[..k + 1][..k] == os[..k];
    }

    /** Lists the table cells an obstacle covers. */
    method GetGridPositions(nodeData: GameObject) returns (vec2s: seq<Cell>)
      requires Valid()
      ensures forall c :: c in vec2s <==> c in Footprint(nodeData)
    {
      vec2s := CellsInSpan(Raster(nodeData));
    }

    /** The table cells of a span, column by column. */
    method CellsInSpan(sp: Span) returns (vec2s: seq<Cell>)
      requires Valid()
      ensures forall c :: c in vec2s <==> InSpan(sp, c) && InMap(c)
    {
      vec2s := [];
      var minPoint, w, h := sp.lo, sp.w, sp.h;
      var i := 0;
      while i < w
        invariant 0 <= i && (i <= w || i == 0)
        invariant forall c :: c in vec2s <==>
                    minPoint.x <= c.x < minPoint.x + i && minPoint.y <= c.y < minPoint.y + h && InMap(c)
      {
        var j := 0;
        while j < h
          invariant 0 <= j && (j <= h || j == 0)
          invariant forall c :: c in vec2s <==>
                      ((minPoint.x <= c.x < minPoint.x + i && minPoint.y <= c.y < minPoint.y + h) ||
                       (c.x == minPoint.x + i && minPoint.y <= c.y < minPoint.y + j)) && InMap(c)
        {
          var key := Cell(i + minPoint.x, minPoint.y + j);
          if key in mapTable {
            vec2s := vec2s + [key];
          }
          j := j + 1;
        }
        i := i + 1;
      }
    }

    /** Marks every listed cell as a fixed obstacle. */
    method MarkFixed(keys: seq<Cell>)
      modifies this`fixClosedListMap
      ensures forall c :: c in fixClosedListMap <==> c in old(fixClosedListMap) || c in keys
    {
      for t := 0 to |keys|
        invariant forall c :: c in fixClosedListMap <==> c in old(fixClosedListMap) || c in keys[..t]
      {
        assert keys[..t + 1] == keys[..t] + [keys[t]];
        fixClosedListMap := fixClosedListMap + {keys[t]};
      }
      assert keys[..|keys|] == keys;
    }

    /** Clears every listed cell of its fixed obstacle. */
    method UnmarkFixed(keys: seq<Cell>)
      modifies this`fixClosedListMap
      ensures forall c :: c in fixClosedListMap <==> c in old(fixClosedListMap) && c !in keys
    {
      for t := 0 to |keys|
        invariant forall c :: c in fixClosedListMap <==> c in old(fixClosedListMap) && c !in keys[..t]
      {
        assert keys[..t + 1] == keys[..t] + [keys[t]];
        fixClosedListMap := fixClosedListMap - {keys[t]};
      }
      assert keys[..|keys|] == keys;
    }

    /** Marks the obstacles' cells as fixed obstacles, skipping any obstacle
        whose area is below 2. */
    method UpdateMap(obstacles: seq<GameObject>)
      requires Valid()
      modifies this`fixClosedListMap
      ensures Valid()
      ensures fixClosedListMap == old(fixClosedListMap) + Covered(obstacles)
    {
      for k := 0 to |obstacles|
        invariant fixClosedListMap == old(fixClosedListMap) + Covered(obstacles[..k])
      {
        CoveredStep(obstacles, k);
        var obstacle := obstacles[k];
        if Area(obstacle) < 2.0 {
          continue;
        }
        var keys := GetGridPositions(obstacle);
        ghost var before := fixClosedListMap;
        MarkFixed(keys);
        assert fixClosedListMap == before + Footprint(obstacle);
      }
      assert obstacles[..|obstacles|] == obstacles;
    }

    /** Clears the obstacles' cells, whatever their size; a cell that is not
        an obstacle is left alone. */
    method RemoveFixObstacle(obstacles: seq<GameObject>)
      requires Valid()
      modifies this`fixClosedListMap
      ensures Valid()
      ensures fixClosedListMap == old(fixClosedListMap) - Footprints(obstacles)
    {
      for k := 0 to |obstacles|
        invariant fixClosedListMap == old(fixClosedListMap) - Footprints(obstacles[..k])
      {
        CoveredStep(obstacles, k);
        var keys := GetGridPositions(obstacles[k]);
        ghost var before := fixClosedListMap;
        UnmarkFixed(keys);
        assert fixClosedListMap == before - Footprint(obstacles[k]);
      }
      assert obstacles[..|obstacles|] == obstacles;
    }

    method RemoveAllObstacle()
      requires Valid()
      modifies this`fixClosedListMap
      ensures Valid()
      ensures fixClosedListMap == {}
    {
      fixClosedListMap := {};
    }

    /** A cell is walkable: in the table and not a fixed obstacle. */
    predicate IsClear(point: Cell)
      reads this`fixClosedListMap
    {
      InMap(point) && point !in fixClosedListMap
    }

    /** Whether a world point is blocked; a point off the map counts as blocked. */
    function HasObstacle(v2: Point): (res: bool)
      reads this`fixClosedListMap
      ensures res <==> !IsClear(GetGridPositionRaw(v2))
      ensures GetGridPosition(v2).None? ==> res
    {
      match GetGridPosition(v2)
      case None => true
      case Some(c) => c in fixClosedListMap
    }

    // ---------------------------------------------------- search bookkeeping

    /** Opens a cell with the current point as parent, or, when it is already
        open, re-parents it unless that makes F strictly greater. */
    method AddToOpenList(v2: Cell) returns (ok: bool)
      requires Valid() && nowPoint.Some? && targetPoint.Some?
      modifies this`mapTable, this`openList, this`openListMap
      ensures Valid()
      ensures ok <==> InMap(v2)
      ensures !ok ==> mapTable == old(mapTable) && openList == old(openList) && openListMap == old(openListMap)
      ensures ok && v2 !in old(openListMap) ==>
                && mapTable == old(mapTable)[v2 := Scored(old(mapTable), v2, nowPoint.value, targetPoint.value)]
                && openList == old(openList) + [v2]
                && openListMap == old(openListMap) + {v2}
      ensures ok && v2 in old(openListMap) ==>
                && mapTable == Reparented(old(mapTable), v2, nowPoint.value, targetPoint.value)
                && openList == old(openList) && openListMap == old(openListMap)
      ensures (old(SearchInv()) && nowPoint.value in closedListMap &&
               v2 !in closedListMap && v2 !in fixClosedListMap) ==> SearchInv()
    {
      if v2 !in mapTable {
        return false;
      }
      if v2 in openListMap {
        Reparent(v2);
      } else {
        OpenCell(v2);
      }
      ok := true;
    }

    /** The branch of AddToOpenList for a cell that is already open. */
    method Reparent(v2: Cell)
      requires Valid() && nowPoint.Some? && targetPoint.Some? && v2 in openListMap
      modifies this`mapTable
      ensures Valid()
      ensures mapTable == Reparented(old(mapTable), v2, nowPoint.value, targetPoint.value)
      ensures old(SearchInv()) && nowPoint.value in closedListMap ==> SearchInv()
    {
      var now, target := nowPoint.value, targetPoint.value;
      var oldParent := mapTable[v2].parent.value;
      var oldF := mapTable[v2].F;
      mapTable := mapTable[v2 := Scored(mapTable, v2, now, target)];
      if mapTable[v2].F > oldF {
        mapTable := mapTable[v2 := Scored(mapTable, v2, oldParent, target)];
      }
      if old(SearchInv()) && now in closedListMap {
        Reopen(old(mapTable), openListMap, fixClosedListMap, closedListMap, bronPoint.value,
               target, rank, v2, now);
      }
    }

    /** The branch of AddToOpenList for a cell that is not open yet. */
    method OpenCell(v2: Cell)
      requires Valid() && nowPoint.Some? && targetPoint.Some? && InMap(v2) && v2 !in openListMap
      modifies this`mapTable, this`openList, this`openListMap
      ensures Valid()
      ensures mapTable == old(mapTable)[v2 := Scored(old(mapTable), v2, nowPoint.value, targetPoint.value)]
      ensures openList == old(openList) + [v2] && openListMap == old(openListMap) + {v2}
      ensures (old(SearchInv()) && nowPoint.value in closedListMap &&
               v2 !in closedListMap && v2 !in fixClosedListMap) ==> SearchInv()
    {
      var now, target := nowPoint.value, targetPoint.value;
      mapTable := mapTable[v2 := Scored(mapTable, v2, now, target)];
      openList := openList + [v2];
      openListMap := openListMap + {v2};
      if old(SearchInv()) && now in closedListMap && v2 !in closedListMap && v2 !in fixClosedListMap {
        OpenNew(old(mapTable), old(openListMap), fixClosedListMap, closedListMap, bronPoint.value,
                target, rank, v2, now);
      }
    }

    /** Whether a cell counts as closed: closed in this search or a fixed obstacle. */
    predicate IsInClosedList(p: Cell)
      reads this`fixClosedListMap, this`closedListMap
      ensures InMap(p) && !IsInClosedList(p) ==> IsClear(p)
      ensures p in closedListMap || p in fixClosedListMap ==> IsInClosedList(p)
    {
      p in fixClosedListMap || p in closedListMap
    }

    /** Index of an open cell with the lowest F: where the source sorts the
        open list by decreasing F and takes the last element. */
    method MinFIndex() returns (k: nat)
      requires Valid() && openList != []
      ensures k < |openList|
      ensures forall j :: 0 <= j < |openList| ==> mapTable[openList[k]].F <= mapTable[openList[j]].F
    {
      k := 0;
      for i := 1 to |openList|
        invariant k < i
        invariant forall j :: 0 <= j < i ==> mapTable[openList[k]].F <= mapTable[openList[j]].F
      {
        if mapTable[openList[i]].F < mapTable[openList[k]].F {
          k := i;
        }
      }
    }

    /** Takes an open cell with the lowest F out of both open collections;
        None when nothing is open. */
    method RemoveMinFFromOpenList() returns (r: Option<Cell>)
      requires Valid()
      modifies this`openList, this`openListMap
      ensures Valid()
      ensures r.None? <==> old(openList) == []
      ensures r.None? ==> openList == old(openList) && openListMap == old(openListMap)
      ensures r.Some? ==>
                && r.value in old(openListMap)
                && openListMap == old(openListMap) - {r.value}
                && |openList| == |old(openList)| - 1
                && (forall d :: d in old(openListMap) ==> mapTable[r.value].F <= mapTable[d].F)
      ensures old(SearchInv()) ==> SearchInv()
      ensures old(SearchInv()) && r.Some? ==>
                && r.value !in closedListMap && r.value !in fixClosedListMap
                && mapTable[r.value].parent.Some? && mapTable[r.value].parent.value in closedListMap
    {
      if openList == [] {
        return None;
      }
      var k := MinFIndex();
      var v2 := openList[k];
      RemoveAt(openList, k);
      openList := openList[..k] + openList[k + 1..];
      var ok := RemoveFromOpenList(v2);
      r := Some(v2);
    }

    /** Deletes a cell from the open lookup; fails when it is not there. */
    method RemoveFromOpenList(v2: Cell) returns (ok: bool)
      modifies this`openListMap
      ensures ok <==> v2 in old(openListMap)
      ensures openListMap == old(openListMap) - {v2}
    {
      if v2 !in openListMap {
        return false;
      }
      openListMap := openListMap - {v2};
      ok := true;
    }

    /** Closes a cell; fails for a cell off the map or already closed. */
    method AddToClosedList(v2: Cell) returns (ok: bool)
      requires Valid()
      modifies this`closedListMap, this`rank, this`nextRank
      ensures Valid()
      ensures ok <==> InMap(v2) && v2 !in old(closedListMap)
      ensures ok ==> && closedListMap == old(closedListMap) + {v2}
                     && rank == old(rank)[v2 := old(nextRank)] && nextRank == old(nextRank) + 1
      ensures !ok ==> closedListMap == old(closedListMap) && rank == old(rank) && nextRank == old(nextRank)
    {
      if v2 !in mapTable || v2 in closedListMap {
        return false;
      }
      closedListMap := closedListMap + {v2};
      rank := rank[v2 := nextRank];
      nextRank := nextRank + 1;
      ok := true;
    }

    /** Forgets the state of the previous search; the cell records and the
        fixed obstacles stay. */
    method Clear()
      requires Valid()
      modifies this`openList, this`openListMap, this`closedListMap, this`bronPoint,
               this`targetPoint, this`nowPoint, this`rank, this`nextRank
      ensures Valid()
      ensures openList == [] && openListMap == {} && closedListMap == {}
      ensures bronPoint == None && targetPoint == None && nowPoint == None
      ensures mapTable == old(mapTable) && fixClosedListMap == old(fixClosedListMap)
      ensures rank == map[] && nextRank == 0
    {
      openList := [];
      openListMap := {};
      closedListMap := {};
      bronPoint := None;
      targetPoint := None;
      nowPoint := None;
      rank, nextRank := map[], 0;
    }

    // ------------------------------------------------------------- scanning

    /** Cells just past `from` in direction `direction` that only a stop here
        reaches, because an obstacle beside the line of travel hides them. */
    function ForcedNeighbour(from: Cell, direction: Cell): (r: seq<Cell>)
      reads this`fixClosedListMap
      ensures forall c :: c in r ==> IsClear(c)
      ensures |r| <= 2
    {
      var x, y, dx, dy := from.x, from.y, direction.x, direction.y;
      var forced :=
        if dy == 0 && IsClear(Cell(x + dx, y)) then
          (if !IsClear(Cell(x, y - 1)) then [Cell(x + dx, y - 1)] else []) +
          (if !IsClear(Cell(x, y + 1)) then [Cell(x + dx, y + 1)] else [])
        else if dx == 0 && IsClear(Cell(x, y + dy)) then
          (if !IsClear(Cell(x - 1, y)) then [Cell(x - 1, y + dy)] else []) +
          (if !IsClear(Cell(x + 1, y)) then [Cell(x + 1, y + dy)] else [])
        else
          (if IsClear(Cell(x, y + dy)) && !IsClear(Cell(x - dx, y)) then [Cell(x - dx, y + dy)] else []) +
          (if IsClear(Cell(x - 1, y)) && !IsClear(Cell(x, y - dy)) then [Cell(x + dx, y - dy)] else []);
      ClearOnly(forced)
    }

    /** Moving along a row: a forced neighbour needs the cell ahead clear and
        a blocked cell above or below; with the cell ahead clear, the cell
        diagonally ahead on a side is forced exactly when the side cell is
        blocked and that cell is clear. */
    lemma ForcedAlongRow(from: Cell, dx: int)
      ensures var r := ForcedNeighbour(from, Cell(dx, 0));
              && (r != [] ==>
                    && IsClear(Cell(from.x + dx, from.y))
                    && (!IsClear(Cell(from.x, from.y - 1)) || !IsClear(Cell(from.x, from.y + 1))))
              && (IsClear(Cell(from.x + dx, from.y)) ==>
                    && (Cell(from.x + dx, from.y - 1) in r <==>
                          !IsClear(Cell(from.x, from.y - 1)) && IsClear(Cell(from.x + dx, from.y - 1)))
                    && (Cell(from.x + dx, from.y + 1) in r <==>
                          !IsClear(Cell(from.x, from.y + 1)) && IsClear(Cell(from.x + dx, from.y + 1))))
    {
      var r := ForcedNeighbour(from, Cell(dx, 0));
      if r != [] {
        assert r[0] in r;
      }
    }

    /** Moving along a column: the same with left and right in place of above
        and below. */
    lemma ForcedAlongColumn(from: Cell, dy: int)
      requires dy != 0
      ensures var r := ForcedNeighbour(from, Cell(0, dy));
              && (r != [] ==>
                    && IsClear(Cell(from.x, from.y + dy))
                    && (!IsClear(Cell(from.x - 1, from.y)) || !IsClear(Cell(from.x + 1, from.y))))
              && (IsClear(Cell(from.x, from.y + dy)) ==>
                    && (Cell(from.x - 1, from.y + dy) in r <==>
                          !IsClear(Cell(from.x - 1, from.y)) && IsClear(Cell(from.x - 1, from.y + dy)))
                    && (Cell(from.x + 1, from.y + dy) in r <==>
                          !IsClear(Cell(from.x + 1, from.y)) && IsClear(Cell(from.x + 1, from.y + dy))))
    {
      var r := ForcedNeighbour(from, Cell(0, dy));
      if r != [] {
        assert r[0] in r;
      }
    }

    /** Moving diagonally: the cell behind on the x side of the motion is
        forced when the cell behind is blocked and the cell ahead on y is
        clear; the cell behind on the y side when the cell behind on y is
        blocked and the cell at x - 1 is clear (the source tests x - 1 for
        both directions of x). */
    lemma ForcedDiagonal(from: Cell, dx: int, dy: int)
      requires dx != 0 && dy != 0
      ensures var r := ForcedNeighbour(from, Cell(dx, dy));
              && (Cell(from.x - dx, from.y + dy) in r <==>
                    && IsClear(Cell(from.x, from.y + dy))
                    && !IsClear(Cell(from.x - dx, from.y))
                    && IsClear(Cell(from.x - dx, from.y + dy)))
              && (Cell(from.x + dx, from.y - dy) in r <==>
                    && IsClear(Cell(from.x - 1, from.y))
                    && !IsClear(Cell(from.x, from.y - dy))
                    && IsClear(Cell(from.x + dx, from.y - dy)))
    {
    }

    /** The clear cells of `s`, in order. */
    function ClearOnly(s: seq<Cell>): (r: seq<Cell>)
      reads this`fixClosedListMap
      ensures forall c :: c in r <==> c in s && IsClear(c)
      ensures |r| <= |s|
    {
      if s == [] then []
      else (if IsClear(s[0]) then [s[0]] else []) + ClearOnly(s[1..])
    }

    /** Every cell after `point` and before `e` on their row or column is
        clear: nothing blocks the way from `point` to `e`. */
    ghost predicate PathClear(point: Cell, e: Cell)
      reads this`fixClosedListMap
    {
      forall c {:trigger Between(point, e, c)} :: Between(point, e, c) && c != e ==> IsClear(c)
    }

    /** A cursor of the scan from `point` has passed only clear cells; an
        active cursor that has moved stands on a clear cell, and a stopped
        one that has moved on an obstacle (or the edge) or the goal. */
    ghost predicate Clearway(c: Cursor, point: Cell)
      reads this`fixClosedListMap, this`targetPoint
    {
      && PathClear(point, c.pos)
      && (c.active && c.pos != point ==> IsClear(c.pos))
      && (!c.active && c.pos != point ==> !IsClear(c.pos) || Some(c.pos) == targetPoint)
    }

    /** A cell the cardinal scan from `point` reports when it gets there:
        clear, not the goal, with a forced neighbour along its heading. */
    ghost predicate JumpShape(point: Cell, e: Cell)
      reads this`fixClosedListMap, this`targetPoint
    {
      IsClear(e) && Some(e) != targetPoint && |ForcedNeighbour(e, Heading(point, e))| > 0
    }

    /** A cell where the cardinal scan from `point` stops to report a jump
        point: a JumpShape with nothing blocked before it. */
    ghost predicate JumpCell(point: Cell, e: Cell)
      reads this`fixClosedListMap, this`targetPoint
    {
      JumpShape(point, e) && PathClear(point, e)
    }

    /** Every jump cell on a line the scan from `point` along `dirs` covers
        is in `out`. */
    ghost predicate ScansAll(point: Cell, dirs: seq<Cell>, out: seq<Cell>)
      reads this`fixClosedListMap, this`targetPoint
    {
      forall e :: OnScanLine(point, e, dirs) && JumpCell(point, e) ==> e in out
    }

    /** Walking back from `e` to `point` along their row or column, every
        jump cell met, `e` included, is in `out`. */
    ghost predicate SweptTo(point: Cell, e: Cell, out: seq<Cell>)
      reads this`fixClosedListMap, this`targetPoint
      decreases Abs(e.x - point.x) + Abs(e.y - point.y)
    {
      Between(point, e, e) ==> (JumpShape(point, e) ==> e in out) && SweptTo(point, Back(point, e), out)
    }

    /** Every jump cell that cursor `c` has passed, its own cell included,
        is in `out` (with Clearway, nothing is blocked before such a cell). */
    ghost predicate Swept(c: Cursor, point: Cell, out: seq<Cell>)
      reads this`fixClosedListMap, this`targetPoint
    {
      SweptTo(point, c.pos, out)
    }

    /** SweptTo holds on with reports that only grow. */
    lemma {:induction false} SweptGrow(point: Cell, e: Cell, out: seq<Cell>, res: seq<Cell>)
      requires SweptTo(point, e, out) && forall x :: x in out ==> x in res
      ensures SweptTo(point, e, res)
      decreases Abs(e.x - point.x) + Abs(e.y - point.y)
    {
      if Between(point, e, e) {
        SweptGrow(point, Back(point, e), out, res);
      }
    }

    /** SweptTo up to `e` puts every jump cell between `point` and `e` in
        `out`. */
    lemma {:induction false} SweptHas(point: Cell, e: Cell, out: seq<Cell>, x: Cell)
      requires SweptTo(point, e, out) && Between(point, e, x) && JumpShape(point, x)
      ensures x in out
      decreases Abs(e.x - point.x) + Abs(e.y - point.y)
    {
      if x != e {
        assert Between(point, Back(point, e), x);
        SweptHas(point, Back(point, e), out, x);
      }
    }

    /** Cursor `c` of the scan from `point` along `d` is on its ray, has
        passed only clear cells and reported every jump cell it passed into
        `out`, and, when `dirs` switches it on, still moves or has moved. */
    ghost predicate Tracked(c: Cursor, point: Cell, d: Cell, dirs: seq<Cell>, out: seq<Cell>)
      reads this`fixClosedListMap, this`targetPoint
    {
      && OnRay(c, point, d, dirs) && Clearway(c, point) && Swept(c, point, out)
      && (Enables(d, dirs) ==> c.active || c.pos != point)
    }

    /** The four cursors of the scan from `point` with `dirs` are Tracked
        with the reports `out`. */
    ghost predicate Cursors(up: Cursor, right: Cursor, down: Cursor, left: Cursor,
                            point: Cell, dirs: seq<Cell>, out: seq<Cell>)
      reads this`fixClosedListMap, this`targetPoint
    {
      && Tracked(up, point, Cell(0, 1), dirs, out)
      && Tracked(right, point, Cell(1, 0), dirs, out)
      && Tracked(down, point, Cell(0, -1), dirs, out)
      && Tracked(left, point, Cell(-1, 0), dirs, out)
    }

    /** A cursor stays Tracked when the reports only grow. */
    lemma TrackedGrow(c: Cursor, point: Cell, d: Cell, dirs: seq<Cell>, out: seq<Cell>, res: seq<Cell>)
      requires Tracked(c, point, d, dirs, out) && forall x :: x in out ==> x in res
      ensures Tracked(c, point, d, dirs, res)
    {
      SweptGrow(point, c.pos, out, res);
    }

    /** A Tracked cursor standing on `e` has a clear way to it from `point`. */
    lemma TrackedAt(c: Cursor, point: Cell, d: Cell, dirs: seq<Cell>, out: seq<Cell>, e: Cell)
      requires Tracked(c, point, d, dirs, out) && c.pos == e
      ensures PathClear(point, e) && (e == point || OnScanLine(point, e, dirs))
    {
      RayHit(c, point, d, dirs);
    }

    /** After one cursor's block, the cursors it left alone stay Tracked
        with the grown reports, so all four are Tracked again. */
    lemma Retrack(up: Cursor, right: Cursor, down: Cursor, left: Cursor,
                  up': Cursor, right': Cursor, down': Cursor, left': Cursor,
                  point: Cell, dirs: seq<Cell>, out: seq<Cell>, res: seq<Cell>)
      requires Cursors(up, right, down, left, point, dirs, out) && forall x :: x in out ==> x in res
      requires up' == up || Tracked(up', point, Cell(0, 1), dirs, res)
      requires right' == right || Tracked(right', point, Cell(1, 0), dirs, res)
      requires down' == down || Tracked(down', point, Cell(0, -1), dirs, res)
      requires left' == left || Tracked(left', point, Cell(-1, 0), dirs, res)
      ensures Cursors(up', right', down', left', point, dirs, res)
    {
      TrackedGrow(up, point, Cell(0, 1), dirs, out, res);
      TrackedGrow(right, point, Cell(1, 0), dirs, out, res);
      TrackedGrow(down, point, Cell(0, -1), dirs, out, res);
      TrackedGrow(left, point, Cell(-1, 0), dirs, out, res);
    }

    /** When the scan ends without meeting the goal, a cursor that `dirs`
        switches on has stopped on an obstacle (or the edge), so every jump
        cell on its line is in `out`. */
    lemma SweptLine(c: Cursor, point: Cell, d: Cell, dirs: seq<Cell>, out: seq<Cell>, e: Cell)
      requires Tracked(c, point, d, dirs, out) && !c.active && Some(c.pos) != targetPoint
      requires OnScanLine(point, e, dirs) && Heading(point, e) == d && JumpCell(point, e)
      ensures e in out
    {
      if Between(point, c.pos, e) {
        SweptHas(point, c.pos, out, e);
      } else {
        assert Between(point, e, c.pos);
      }
    }

    /** The next cell of an active cursor that has passed only clear cells
        has nothing blocked before it. */
    lemma ClearStep(c: Cursor, point: Cell, d: Cell, dirs: seq<Cell>)
      requires OnRay(c, point, d, dirs) && c.active && Clearway(c, point)
      ensures PathClear(point, Cell(c.pos.x + d.x, c.pos.y + d.y))
    {
      var p := Cell(c.pos.x + d.x, c.pos.y + d.y);
      forall x | Between(point, p, x) && x != p
        ensures IsClear(x)
      {
        if x != c.pos {
          assert Between(point, c.pos, x);
        }
      }
    }

    /** A cursor that steps from `c` to `c'`, standing on a clear cell if
        it still moves and on an obstacle (or the edge) or the goal if it
        stopped, stays Tracked when the new reports `res` keep the old ones
        and hold its new cell if that is a jump cell. */
    lemma TrackStep(c: Cursor, c': Cursor, point: Cell, d: Cell, dirs: seq<Cell>, out: seq<Cell>, res: seq<Cell>)
      requires Tracked(c, point, d, dirs, out) && c.active && c'.pos == Cell(c.pos.x + d.x, c.pos.y + d.y)
      requires c'.active ==> IsClear(c'.pos)
      requires !c'.active ==> !IsClear(c'.pos) || Some(c'.pos) == targetPoint
      requires forall x :: x in out ==> x in res
      requires JumpShape(point, c'.pos) ==> c'.pos in res
      ensures Tracked(c', point, d, dirs, res)
    {
      ClearStep(c, point, d, dirs);
      SweptGrow(point, c.pos, out, res);
      assert Back(point, c'.pos) == c.pos;
    }

    /** A cell the cardinal scan from `point` may report: in the table, on a
        scanned line (or the origin itself when that is the goal), with
        nothing blocked between `point` and it, and either a jump cell or the
        goal, which is reported only when `point` is not the current point. */
    ghost predicate ScanHit(point: Cell, e: Cell, dirs: seq<Cell>)
      reads this`fixClosedListMap, this`targetPoint, this`nowPoint
    {
      && InMap(e)
      && (OnScanLine(point, e, dirs) || (e == point && Some(e) == targetPoint))
      && PathClear(point, e)
      && if Some(e) == targetPoint then nowPoint != Some(point) else JumpShape(point, e)
    }

    /** `out` is `jPoint` followed by cells the scan from `point` may report. */
    ghost predicate Hits(jPoint: seq<Cell>, out: seq<Cell>, point: Cell, dirs: seq<Cell>)
      reads this`fixClosedListMap, this`targetPoint, this`nowPoint
    {
      && |jPoint| <= |out| && out[..|jPoint|] == jPoint
      && forall i :: |jPoint| <= i < |out| ==> ScanHit(point, out[i], dirs)
    }

    /** Every cell after `point` up to and including `e` on their row or
        column is clear. */
    ghost predicate LineClear(point: Cell, e: Cell)
      reads this`fixClosedListMap
    {
      forall c {:trigger Between(point, e, c)} :: Between(point, e, c) ==> IsClear(c)
    }

    /** The cardinal scan from `point` with `dirs` sees `goal`: it lies on a
        scanned line with nothing blocked up to it. */
    ghost predicate SeesGoal(point: Cell, goal: Cell, dirs: seq<Cell>)
      reads this`fixClosedListMap
    {
      OnScanLine(point, goal, dirs) && LineClear(point, goal)
    }

    /** The scan from `point` ended on the goal: `found` when `point` is the
        current point, and otherwise the goal is the last report. */
    ghost predicate Reached(jPoint: seq<Cell>, out: seq<Cell>, point: Cell, found: bool)
      reads this`nowPoint, this`targetPoint
    {
      && targetPoint.Some?
      && if nowPoint == Some(point) then found
         else |jPoint| < |out| && out[|out| - 1] == targetPoint.value
    }

    /** What a cursor moving in `dir` finds on the cell it steps onto. */
    function ProbeCell(pos: Cell, dir: Cell): (r: Probe)
      requires targetPoint.Some?
      reads this`fixClosedListMap, this`targetPoint
      ensures r == Blocked <==> !IsClear(pos)
      ensures r == Goal <==> IsClear(pos) && pos == targetPoint.value
      ensures r == Jump <==> IsClear(pos) && pos != targetPoint.value && |ForcedNeighbour(pos, dir)| > 0
    {
      if !IsClear(pos) then Blocked
      else if pos == targetPoint.value then Goal
      else if |ForcedNeighbour(pos, dir)| > 0 then Jump
      else Pass
    }

    /** Steps left before an active cursor moving along `d` leaves the map. */
    function Reach(c: Cursor, d: Cell): nat
    {
      if !c.active then 0
      else if d == Cell(0, 1) then Room(rows - c.pos.y)
      else if d == Cell(1, 0) then Room(cols - c.pos.x)
      else if d == Cell(0, -1) then Room(c.pos.y + 1)
      else Room(c.pos.x + 1)
    }

    /** The goal was reached from `point`: the search is over (`found`) when
        `point` is the current point, otherwise the goal is reported as a jump
        point. */
    function ReachGoal(out: seq<Cell>, point: Cell): (r: (seq<Cell>, bool))
      requires targetPoint.Some? && nowPoint.Some?
      reads this`nowPoint, this`targetPoint
      ensures r.1 <==> nowPoint == Some(point)
      ensures r.0 == if r.1 then out else out + [targetPoint.value]
    {
      if nowPoint == Some(point) then (out, true) else (out + [targetPoint.value], false)
    }

    /** What the scan from `point` reports for the cell `pos` a cursor has
        just stepped onto: a jump cell is added, the goal is handled by
        ReachGoal, and any other cell adds nothing. */
    function Emit(probe: Probe, pos: Cell, jPoint: seq<Cell>, out: seq<Cell>, point: Cell, dirs: seq<Cell>)
      : (r: (seq<Cell>, bool))
      requires targetPoint.Some? && nowPoint.Some? && Hits(jPoint, out, point, dirs)
      requires probe == Goal <==> IsClear(pos) && pos == targetPoint.value
      requires probe == Jump <==> JumpShape(point, pos)
      requires probe == Jump || probe == Goal ==> OnScanLine(point, pos, dirs) && PathClear(point, pos)
      reads this`fixClosedListMap, this`targetPoint, this`nowPoint
      ensures probe == Jump ==> r.0 == out + [pos]
      ensures probe != Jump && probe != Goal ==> r.0 == out && !r.1
      ensures r.1 ==> probe == Goal && nowPoint == Some(point)
      ensures probe == Goal ==> (r.1 <==> nowPoint == Some(point))
      ensures probe == Goal ==> r.0 == if r.1 then out else out + [targetPoint.value]
      ensures probe == Goal ==> Reached(jPoint, r.0, point, r.1)
      ensures Hits(jPoint, r.0, point, dirs)
    {
      if probe == Goal then ReachGoal(out, point)
      else if probe == Jump then (out + [pos], false)
      else (out, false)
    }

    /** One lock-step move of an active cursor along `d`: the cursor stops on
        an obstacle, off the map or on the goal; a cell with a forced
        neighbour is added as a jump point; the goal is handled by ReachGoal. */
    method Step(c: Cursor, d: Cell, jPoint: seq<Cell>, out: seq<Cell>, point: Cell, dirs: seq<Cell>)
      returns (c': Cursor, res: seq<Cell>, probe: Probe, found: bool)
      requires targetPoint.Some? && nowPoint.Some? && c.active && OnRay(c, point, d, dirs)
      requires Hits(jPoint, out, point, dirs) && Tracked(c, point, d, dirs, out)
      ensures c'.pos == Cell(c.pos.x + d.x, c.pos.y + d.y)
      ensures Reach(c', d) < Reach(c, d) && Tracked(c', point, d, dirs, res)
      ensures c'.active <==> probe == Jump || probe == Pass
      ensures probe == Blocked <==> !IsClear(c'.pos)
      ensures probe == Goal <==> IsClear(c'.pos) && c'.pos == targetPoint.value
      ensures probe == Jump <==> IsClear(c'.pos) && c'.pos != targetPoint.value && |ForcedNeighbour(c'.pos, d)| > 0
      ensures probe == Jump ==> res == out + [c'.pos]
      ensures probe == Blocked || probe == Pass ==> res == out
      ensures Hits(jPoint, res, point, dirs)
      ensures found ==>
                && probe == Goal && nowPoint == Some(point)
                && OnScanLine(point, targetPoint.value, dirs) && PathClear(point, targetPoint.value)
      ensures probe == Goal ==> Reached(jPoint, res, point, found)
      ensures probe == Goal ==> res == if found then out else out + [targetPoint.value]
    {
      ClearStep(c, point, d, dirs);
      c' := c.(pos := Cell(c.pos.x + d.x, c.pos.y + d.y));
      probe := ProbeCell(c'.pos, d);
      if probe == Blocked || probe == Goal {
        c' := c'.(active := false);
      }
      assert Heading(point, c'.pos) == d && OnScanLine(point, c'.pos, dirs);
      var emitted := Emit(probe, c'.pos, jPoint, out, point, dirs);
      res, found := emitted.0, emitted.1;
      TrackStep(c, c', point, d, dirs, out, res);
    }

    /** One cursor's block in a round of the scan. Nothing happens to a
        stopped cursor, or once an earlier cursor has skipped the rest of the
        round (`flow == Skip`); otherwise the cursor steps, and reaching the
        goal stops the scan while, for a cursor that `skips`, meeting an
        obstacle or the edge skips the rest of the round. */
    method Lane(c: Cursor, d: Cell, jPoint: seq<Cell>, out: seq<Cell>, point: Cell, dirs: seq<Cell>,
                flow: Flow, skips: bool)
      returns (c': Cursor, res: seq<Cell>, flow': Flow, found: bool)
      requires targetPoint.Some? && nowPoint.Some? && flow != Stop && OnRay(c, point, d, dirs)
      requires Hits(jPoint, out, point, dirs) && Tracked(c, point, d, dirs, out)
      ensures Hits(jPoint, res, point, dirs) && Tracked(c', point, d, dirs, res)
      ensures forall x :: x in out ==> x in res
      ensures !(flow == Go && c.active) ==> c' == c && res == out && flow' == flow && !found
      ensures flow == Go && c.active ==>
                && c'.pos == Cell(c.pos.x + d.x, c.pos.y + d.y)
                && Reach(c', d) < Reach(c, d)
                && (c'.active <==> IsClear(c'.pos) && c'.pos != targetPoint.value)
                && (flow' == Stop <==> IsClear(c'.pos) && c'.pos == targetPoint.value)
                && (flow' == Skip <==> skips && !IsClear(c'.pos))
                && (flow' != Stop ==>
                      res == if c'.active && |ForcedNeighbour(c'.pos, d)| > 0 then out + [c'.pos] else out)
                && (flow' == Stop ==> res == if found then out else out + [targetPoint.value])
      ensures found ==>
                && flow' == Stop && nowPoint == Some(point)
                && OnScanLine(point, targetPoint.value, dirs) && PathClear(point, targetPoint.value)
      ensures flow' == Stop ==> Reached(jPoint, res, point, found)
      ensures LineClear(point, targetPoint.value) && Toward(c, d, targetPoint.value) ==>
                flow' == Stop || Toward(c', d, targetPoint.value)
    {
      c', res, flow', found := c, out, flow, false;
      if flow == Go && c.active {
        var probe;
        c', res, probe, found := Step(c, d, jPoint, out, point, dirs);
        if LineClear(point, targetPoint.value) && Toward(c, d, targetPoint.value) {
          assert Between(point, targetPoint.value, c'.pos);
        }
        if probe == Goal {
          flow' := Stop;
        } else if probe == Blocked && skips {
          flow' := Skip;
        }
      }
    }

    /** The check after each round: a cursor, stopped or not, that sits on the
        goal ends the scan as ReachGoal says. */
    method CursorsOnGoal(up: Cursor, right: Cursor, down: Cursor, left: Cursor,
                         jPoint: seq<Cell>, out: seq<Cell>, point: Cell, dirs: seq<Cell>)
      returns (res: seq<Cell>, stop: bool, found: bool)
      requires targetPoint.Some? && InMap(targetPoint.value) && nowPoint.Some?
      requires Cursors(up, right, down, left, point, dirs, out)
      requires Hits(jPoint, out, point, dirs)
      ensures stop <==> targetPoint.value in {up.pos, right.pos, down.pos, left.pos}
      ensures !stop ==> res == out && !found
      ensures Cursors(up, right, down, left, point, dirs, res)
      ensures Hits(jPoint, res, point, dirs)
      ensures found ==>
                && nowPoint == Some(point) && PathClear(point, targetPoint.value)
                && (OnScanLine(point, targetPoint.value, dirs) || point == targetPoint.value)
      ensures stop ==> Reached(jPoint, res, point, found)
    {
      var target := targetPoint.value;
      res, stop, found := out, false, false;
      if up.pos == target || right.pos == target || down.pos == target || left.pos == target {
        GoalOnCursor(up, right, down, left, jPoint, out, point, dirs);
        stop := true;
        res, found := ReachGoal(out, point).0, ReachGoal(out, point).1;
      }
    }

    /** A cursor on the goal has a clear way to it, and reporting the goal
        as ReachGoal says keeps the reports and the cursors as they were. */
    lemma GoalOnCursor(up: Cursor, right: Cursor, down: Cursor, left: Cursor,
                       jPoint: seq<Cell>, out: seq<Cell>, point: Cell, dirs: seq<Cell>)
      requires targetPoint.Some? && InMap(targetPoint.value) && nowPoint.Some?
      requires Cursors(up, right, down, left, point, dirs, out) && Hits(jPoint, out, point, dirs)
      requires targetPoint.value in {up.pos, right.pos, down.pos, left.pos}
      ensures PathClear(point, targetPoint.value)
      ensures OnScanLine(point, targetPoint.value, dirs) || point == targetPoint.value
      ensures Cursors(up, right, down, left, point, dirs, ReachGoal(out, point).0)
      ensures Hits(jPoint, ReachGoal(out, point).0, point, dirs)
    {
      var target, res := targetPoint.value, ReachGoal(out, point).0;
      if up.pos == target {
        TrackedAt(up, point, Cell(0, 1), dirs, out, target);
      } else if right.pos == target {
        TrackedAt(right, point, Cell(1, 0), dirs, out, target);
      } else if down.pos == target {
        TrackedAt(down, point, Cell(0, -1), dirs, out, target);
      } else {
        TrackedAt(left, point, Cell(-1, 0), dirs, out, target);
      }
      TrackedGrow(up, point, Cell(0, 1), dirs, out, res);
      TrackedGrow(right, point, Cell(1, 0), dirs, out, res);
      TrackedGrow(down, point, Cell(0, -1), dirs, out, res);
      TrackedGrow(left, point, Cell(-1, 0), dirs, out, res);
    }

    /** The scan's termination measure: the steps left to the active cursors. */
    function Budget(up: Cursor, right: Cursor, down: Cursor, left: Cursor): nat
    {
      Reach(up, Cell(0, 1)) + Reach(right, Cell(1, 0)) + Reach(down, Cell(0, -1)) + Reach(left, Cell(-1, 0))
    }

    /** The four cursor blocks of a round of the scan: up, right, down and
        left in turn (Lane), where only the up cursor does not skip the rest
        of the round when it stops. */
    method Lanes(up: Cursor, right: Cursor, down: Cursor, left: Cursor,
                 jPoint: seq<Cell>, out: seq<Cell>, point: Cell, dirs: seq<Cell>)
      returns (up': Cursor, right': Cursor, down': Cursor, left': Cursor,
               res: seq<Cell>, flow: Flow, found: bool)
      requires targetPoint.Some? && InMap(targetPoint.value) && nowPoint.Some?
      requires Cursors(up, right, down, left, point, dirs, out)
      requires Hits(jPoint, out, point, dirs)
      ensures Cursors(up', right', down', left', point, dirs, res)
      ensures Hits(jPoint, res, point, dirs)
      ensures found ==>
                && flow == Stop && nowPoint == Some(point)
                && OnScanLine(point, targetPoint.value, dirs) && PathClear(point, targetPoint.value)
      ensures flow != Stop && (flow == Skip || up'.active || right'.active || down'.active || left'.active) ==>
                Budget(up', right', down', left') < Budget(up, right, down, left)
      ensures flow == Stop ==> Reached(jPoint, res, point, found)
      ensures LineClear(point, targetPoint.value) && GoalAhead(up, right, down, left, targetPoint.value) ==>
                flow == Stop || GoalAhead(up', right', down', left', targetPoint.value)
    {
      up', right', down', left' := up, right, down, left;
      up', res, flow, found := Lane(up, Cell(0, 1), jPoint, out, point, dirs, Go, false);
      Retrack(up, right, down, left, up', right, down, left, point, dirs, out, res);
      if flow == Stop {
        return;
      }
      right', down', left', res, flow, found := SideLanes(up', right, down, left, jPoint, res, point, dirs);
    }

    /** The right, down and left cursor blocks of a round (Lane), each of
        which skips the rest of the round when it stops on an obstacle or
        the edge; the up cursor stays as it is. */
    method SideLanes(up: Cursor, right: Cursor, down: Cursor, left: Cursor,
                     jPoint: seq<Cell>, out: seq<Cell>, point: Cell, dirs: seq<Cell>)
      returns (right': Cursor, down': Cursor, left': Cursor, res: seq<Cell>, flow: Flow, found: bool)
      requires targetPoint.Some? && InMap(targetPoint.value) && nowPoint.Some?
      requires Cursors(up, right, down, left, point, dirs, out)
      requires Hits(jPoint, out, point, dirs)
      ensures Cursors(up, right', down', left', point, dirs, res)
      ensures Hits(jPoint, res, point, dirs)
      ensures found ==>
                && flow == Stop && nowPoint == Some(point)
                && OnScanLine(point, targetPoint.value, dirs) && PathClear(point, targetPoint.value)
      ensures flow != Stop ==> Budget(up, right', down', left') <= Budget(up, right, down, left)
      ensures flow != Stop && (flow == Skip || right'.active || down'.active || left'.active) ==>
                Budget(up, right', down', left') < Budget(up, right, down, left)
      ensures flow == Stop ==> Reached(jPoint, res, point, found)
      ensures LineClear(point, targetPoint.value) && GoalAhead(up, right, down, left, targetPoint.value) ==>
                flow == Stop || GoalAhead(up, right', down', left', targetPoint.value)
    {
      down', left' := down, left;
      right', res, flow, found := Lane(right, Cell(1, 0), jPoint, out, point, dirs, Go, true);
      Retrack(up, right, down, left, up, right', down, left, point, dirs, out, res);
      if flow == Stop {
        return;
      }
      down', left', res, flow, found := LowerLanes(up, right', down, left, jPoint, res, point, dirs, flow);
    }

    /** The down and left cursor blocks of a round (Lane), after the up and
        right blocks ended with `flow`; the up and right cursors stay. */
    method LowerLanes(up: Cursor, right: Cursor, down: Cursor, left: Cursor,
                      jPoint: seq<Cell>, out: seq<Cell>, point: Cell, dirs: seq<Cell>, flow: Flow)
      returns (down': Cursor, left': Cursor, res: seq<Cell>, flow': Flow, found: bool)
      requires targetPoint.Some? && InMap(targetPoint.value) && nowPoint.Some? && flow != Stop
      requires Cursors(up, right, down, left, point, dirs, out)
      requires Hits(jPoint, out, point, dirs)
      ensures Cursors(up, right, down', left', point, dirs, res)
      ensures Hits(jPoint, res, point, dirs)
      ensures found ==>
                && flow' == Stop && nowPoint == Some(point)
                && OnScanLine(point, targetPoint.value, dirs) && PathClear(point, targetPoint.value)
      ensures flow' != Stop ==> flow' == Skip || flow == flow'
      ensures flow' != Stop ==> Budget(up, right, down', left') <= Budget(up, right, down, left)
      ensures flow' != Stop && (flow' != flow || (flow == Go && (down'.active || left'.active))) ==>
                Budget(up, right, down', left') < Budget(up, right, down, left)
      ensures flow' == Stop ==> Reached(jPoint, res, point, found)
      ensures LineClear(point, targetPoint.value) && GoalAhead(up, right, down, left, targetPoint.value) ==>
                flow' == Stop || GoalAhead(up, right, down', left', targetPoint.value)
    {
      left' := left;
      down', res, flow', found := Lane(down, Cell(0, -1), jPoint, out, point, dirs, flow, true);
      Retrack(up, right, down, left, up, right, down', left, point, dirs, out, res);
      if flow' == Stop {
        return;
      }
      left', res, flow', found := LeftLane(up, right, down', left, jPoint, res, point, dirs, flow');
    }

    /** The left cursor block of a round (Lane), after the other three
        blocks ended with `flow`; the other cursors stay. */
    method LeftLane(up: Cursor, right: Cursor, down: Cursor, left: Cursor,
                    jPoint: seq<Cell>, out: seq<Cell>, point: Cell, dirs: seq<Cell>, flow: Flow)
      returns (left': Cursor, res: seq<Cell>, flow': Flow, found: bool)
      requires targetPoint.Some? && InMap(targetPoint.value) && nowPoint.Some? && flow != Stop
      requires Cursors(up, right, down, left, point, dirs, out)
      requires Hits(jPoint, out, point, dirs)
      ensures Cursors(up, right, down, left', point, dirs, res)
      ensures Hits(jPoint, res, point, dirs)
      ensures found ==>
                && flow' == Stop && nowPoint == Some(point)
                && OnScanLine(point, targetPoint.value, dirs) && PathClear(point, targetPoint.value)
      ensures flow' != Stop ==> flow' == Skip || flow == flow'
      ensures flow' != Stop ==> Budget(up, right, down, left') <= Budget(up, right, down, left)
      ensures flow' != Stop && (flow' != flow || (flow == Go && left'.active)) ==>
                Budget(up, right, down, left') < Budget(up, right, down, left)
      ensures flow' == Stop ==> Reached(jPoint, res, point, found)
      ensures LineClear(point, targetPoint.value) && GoalAhead(up, right, down, left, targetPoint.value) ==>
                flow' == Stop || GoalAhead(up, right, down, left', targetPoint.value)
    {
      left', res, flow', found := Lane(left, Cell(-1, 0), jPoint, out, point, dirs, flow, true);
      Retrack(up, right, down, left, up, right, down, left', point, dirs, out, res);
    }

    /** One round of the scan: the cursor blocks (Lanes), then, unless the
        round was skipped, the check for a cursor on the goal. */
    method Round(up: Cursor, right: Cursor, down: Cursor, left: Cursor,
                 jPoint: seq<Cell>, out: seq<Cell>, point: Cell, dirs: seq<Cell>)
      returns (up': Cursor, right': Cursor, down': Cursor, left': Cursor,
               res: seq<Cell>, flow: Flow, found: bool)
      requires targetPoint.Some? && InMap(targetPoint.value) && nowPoint.Some?
      requires Cursors(up, right, down, left, point, dirs, out)
      requires Hits(jPoint, out, point, dirs)
      ensures Cursors(up', right', down', left', point, dirs, res)
      ensures Hits(jPoint, res, point, dirs)
      ensures found ==>
                && flow == Stop && nowPoint == Some(point) && PathClear(point, targetPoint.value)
                && (OnScanLine(point, targetPoint.value, dirs) || point == targetPoint.value)
      ensures flow != Stop && (flow == Skip || up'.active || right'.active || down'.active || left'.active) ==>
                Budget(up', right', down', left') < Budget(up, right, down, left)
      ensures flow == Stop ==> Reached(jPoint, res, point, found)
      ensures flow == Go ==> targetPoint.value !in {up'.pos, right'.pos, down'.pos, left'.pos}
      ensures LineClear(point, targetPoint.value) && GoalAhead(up, right, down, left, targetPoint.value) ==>
                flow == Stop || GoalAhead(up', right', down', left', targetPoint.value)
    {
      up', right', down', left', res, flow, found := Lanes(up, right, down, left, jPoint, out, point, dirs);
      if flow != Go {
        return;
      }
      var stop: bool;
      res, stop, found := CursorsOnGoal(up', right', down', left', jPoint, res, point, dirs);
      if stop {
        flow := Stop;
      }
    }

    /** The four cursors of the scan, all at `point`, each switched on
        exactly when some direction of `dirs` has its sign on its axis. */
    method StartCursors(point: Cell, dirs: seq<Cell>) returns (up: Cursor, right: Cursor, down: Cursor, left: Cursor)
      ensures up.pos == point && right.pos == point && down.pos == point && left.pos == point
      ensures up.active <==> EnablesUp(dirs)
      ensures right.active <==> EnablesRight(dirs)
      ensures down.active <==> EnablesDown(dirs)
      ensures left.active <==> EnablesLeft(dirs)
    {
      up, right, down, left := Cursor(point, false), Cursor(point, false), Cursor(point, false), Cursor(point, false);
      for k := 0 to |dirs|
        invariant up.pos == point && right.pos == point && down.pos == point && left.pos == point
        invariant up.active <==> EnablesUp(dirs[..k])
        invariant right.active <==> EnablesRight(dirs[..k])
        invariant down.active <==> EnablesDown(dirs[..k])
        invariant left.active <==> EnablesLeft(dirs[..k])
      {
        if dirs[k].y == 1 { up := up.(active := true); }
        if dirs[k].x == 1 { right := right.(active := true); }
        if dirs[k].y == -1 { down := down.(active := true); }
        if dirs[k].x == -1 { left := left.(active := true); }
        assert dirs[..k + 1][k] == dirs[k];
        assert forall i :: 0 <= i < k ==> dirs[..k + 1][i] == dirs[..k][i];
      }
      assert dirs[..|dirs|] == dirs;
    }

    /** The cursors StartCursors gives are Tracked with any reports, and one
        of them heads for the goal when the scan sees it. */
    lemma CursorsAtStart(up: Cursor, right: Cursor, down: Cursor, left: Cursor,
                         point: Cell, dirs: seq<Cell>, out: seq<Cell>)
      requires up.pos == point && right.pos == point && down.pos == point && left.pos == point
      requires up.active <==> EnablesUp(dirs)
      requires right.active <==> EnablesRight(dirs)
      requires down.active <==> EnablesDown(dirs)
      requires left.active <==> EnablesLeft(dirs)
      requires targetPoint.Some?
      ensures Cursors(up, right, down, left, point, dirs, out)
      ensures SeesGoal(point, targetPoint.value, dirs) ==> GoalAhead(up, right, down, left, targetPoint.value)
    {
    }

    /** Scans from `point` along its row and column in lock-step, with the
        cursors that `dirs` switches on (y = 1 up, x = 1 right, y = -1 down,
        x = -1 left), appending jump points to `jPoint`. Reaching the goal
        ends the scan: it is `found` when `point` is the current point and
        otherwise reported as a jump point. */
    method SearchBase(jPoint: seq<Cell>, point: Cell, dirs: seq<Cell>) returns (out: seq<Cell>, found: bool)
      requires targetPoint.Some? && InMap(targetPoint.value) && nowPoint.Some?
      ensures Hits(jPoint, out, point, dirs)
      ensures found ==>
                && nowPoint == Some(point) && PathClear(point, targetPoint.value)
                && (OnScanLine(point, targetPoint.value, dirs) || point == targetPoint.value)
      ensures SeesGoal(point, targetPoint.value, dirs) ==>
                if nowPoint == Some(point) then found else targetPoint.value in out[|jPoint|..]
      ensures !found && targetPoint.value !in out[|jPoint|..] ==>
                ScansAll(point, dirs, out)
    {
      out, found := jPoint, false;
      var up, right, down, left := StartCursors(point, dirs);
      CursorsAtStart(up, right, down, left, point, dirs, out);
      while true
        invariant Cursors(up, right, down, left, point, dirs, out)
        invariant Hits(jPoint, out, point, dirs) && !found
        invariant SeesGoal(point, targetPoint.value, dirs) ==> GoalAhead(up, right, down, left, targetPoint.value)
        decreases Budget(up, right, down, left)
      {
        var flow;
        up, right, down, left, out, flow, found := Round(up, right, down, left, jPoint, out, point, dirs);
        if flow == Stop {
          if nowPoint != Some(point) {
            assert out[|jPoint|..][|out| - 1 - |jPoint|] == out[|out| - 1];
          }
          return;
        } else if flow == Skip {
          continue;
        }
        if !up.active && !right.active && !down.active && !left.active {
          break;
        }
      }
      SweptAll(up, right, down, left, point, dirs, out);
    }

    /** When all four cursors have stopped and none is on the goal, the goal
        was not in view of the scan, and every jump cell on a scanned line is
        reported. */
    lemma SweptAll(up: Cursor, right: Cursor, down: Cursor, left: Cursor,
                   point: Cell, dirs: seq<Cell>, out: seq<Cell>)
      requires Cursors(up, right, down, left, point, dirs, out)
      requires !up.active && !right.active && !down.active && !left.active
      requires targetPoint.Some? && targetPoint.value !in {up.pos, right.pos, down.pos, left.pos}
      requires SeesGoal(point, targetPoint.value, dirs) ==> GoalAhead(up, right, down, left, targetPoint.value)
      ensures !SeesGoal(point, targetPoint.value, dirs)
      ensures ScansAll(point, dirs, out)
    {
      forall e | OnScanLine(point, e, dirs) && JumpCell(point, e)
        ensures e in out
      {
        var d := Heading(point, e);
        if d == Cell(0, 1) {
          SweptLine(up, point, d, dirs, out, e);
        } else if d == Cell(1, 0) {
          SweptLine(right, point, d, dirs, out, e);
        } else if d == Cell(0, -1) {
          SweptLine(down, point, d, dirs, out, e);
        } else {
          SweptLine(left, point, d, dirs, out, e);
        }
      }
    }

    /** A cell the diagonal scan from `point` may report: in the table, and
        clear or the goal, the goal only when the walk is not `direct` (from
        the current point). */
    ghost predicate DiagReport(e: Cell, direct: bool)
      reads this`fixClosedListMap, this`targetPoint
    {
      && InMap(e)
      && (IsClear(e) || Some(e) == targetPoint)
      && (Some(e) == targetPoint ==> !direct)
    }

    /** `e` lies on the ray from `point` along `dir`, and the walk passed its
        test at every diagonal step before `e`. */
    ghost predicate DiagReach(point: Cell, e: Cell, dir: Cell)
      reads this`fixClosedListMap
    {
      && OnDiagRay(point, e, dir)
      && forall t :: 0 <= t < Abs(e.x - point.x) ==> Walkable(DiagCell(point, dir, t), dir)
    }

    /** `e` is reached by a walk along one of the first `n` rays of AllDir
        from `point`. */
    ghost predicate InReach(point: Cell, e: Cell, n: nat)
      reads this`fixClosedListMap
    {
      0 < n <= |AllDir| && (DiagReach(point, e, AllDir[n - 1]) || InReach(point, e, n - 1))
    }

    /** Nothing blocks the way from `a` to `b`: they share a row or column
        with every cell between them clear, or a diagonal walk from `a`
        reaches `b`. */
    ghost predicate Visible(a: Cell, b: Cell)
      reads this`fixClosedListMap
    {
      ((a.x == b.x || a.y == b.y) && PathClear(a, b)) || InReach(a, b, |AllDir|)
    }

    /** `out` is `arr` followed by reportable cells that the walk from
        `point` along `dir` reaches. */
    ghost predicate DiagHits(arr: seq<Cell>, out: seq<Cell>, point: Cell, dir: Cell, direct: bool)
      reads this`fixClosedListMap, this`targetPoint
    {
      && |arr| <= |out| && out[..|arr|] == arr
      && forall i :: |arr| <= i < |out| ==> DiagReport(out[i], direct) && DiagReach(point, out[i], dir)
    }

    /** `out` is `arr` followed by reportable cells that the walks along the
        first `n` rays of AllDir from `point` reach. */
    ghost predicate RayHits(arr: seq<Cell>, out: seq<Cell>, point: Cell, n: nat, direct: bool)
      reads this`fixClosedListMap, this`targetPoint
    {
      && |arr| <= |out| && out[..|arr|] == arr
      && forall i :: |arr| <= i < |out| ==> DiagReport(out[i], direct) && InReach(point, out[i], n)
    }

    /** Diagonal step `t` of the walk from `point` along `dir` lets the walk
        go on: the cell is clear, so is one of the two cells it would cut
        between, and past the first step it has no forced neighbour. */
    ghost predicate DiagOpen(point: Cell, dir: Cell, t: nat)
      reads this`fixClosedListMap
    {
      var c := DiagCell(point, dir, t);
      Walkable(c, dir) && (t > 0 ==> |ForcedNeighbour(c, dir)| == 0)
    }

    /** The test of the diagonal walk: the cell is clear, and so is one of the
        two cells a step along `dir` would cut between. */
    predicate Walkable(c: Cell, dir: Cell)
      reads this`fixClosedListMap
    {
      IsClear(c) && (IsClear(Cell(c.x, c.y + dir.y)) || IsClear(Cell(c.x + dir.x, c.y)))
    }

    /** Every step of a walk that reaches the goal, before the goal, lets the
        walk go on. */
    lemma OpenBeforeGoal(point: Cell, goal: Cell, dir: Cell, t: nat)
      requires DiagSeesGoal(point, goal, dir) && t < Abs(goal.x - point.x)
      ensures DiagCell(point, dir, Abs(goal.x - point.x)) == goal
      ensures Walkable(DiagCell(point, dir, t), dir)
      ensures t > 0 ==> |ForcedNeighbour(DiagCell(point, dir, t), dir)| == 0
    {
      assert DiagOpen(point, dir, t);
    }

    /** The walk along `dir` from `point` does not meet `goal` at any of the
        steps `1 .. t`. */
    ghost predicate NotMetBy(point: Cell, goal: Cell, dir: Cell, t: nat)
    {
      var k := Abs(goal.x - point.x);
      !(0 < k <= t && DiagCell(point, dir, k) == goal)
    }

    /** A walk that has not met the goal by step `t` and cannot go on past
        step `t` does not reach the goal. */
    lemma StopsShort(point: Cell, goal: Cell, dir: Cell, t: nat)
      requires NotMetBy(point, goal, dir, t)
      requires !Walkable(DiagCell(point, dir, t), dir) || (t > 0 && |ForcedNeighbour(DiagCell(point, dir, t), dir)| > 0)
      ensures !DiagSeesGoal(point, goal, dir)
    {
      if DiagSeesGoal(point, goal, dir) {
        OpenBeforeGoal(point, goal, dir, t);
      }
    }

    /** The walk along `dir` from `point` reaches `goal`: the goal lies on the
        ray, past `point`, and every step before it lets the walk go on. */
    ghost predicate DiagSeesGoal(point: Cell, goal: Cell, dir: Cell)
      reads this`fixClosedListMap
    {
      var k := Abs(goal.x - point.x);
      && k > 0 && DiagCell(point, dir, k) == goal
      && forall t :: 0 <= t < k ==> DiagOpen(point, dir, t)
    }

    /** Some walk of the diagonal scan from `point` reaches `goal`. */
    ghost predicate DiagInView(point: Cell, goal: Cell)
      reads this`fixClosedListMap
    {
      exists j :: 0 <= j < |AllDir| && DiagSeesGoal(point, goal, AllDir[j])
    }

    /** The first round's scans from `point` reach `goal`: along a clear row
        or column, or along a diagonal walk. */
    ghost predicate InView(point: Cell, goal: Cell)
      reads this`fixClosedListMap
    {
      SeesGoal(point, goal, RowAndColumn) || DiagInView(point, goal)
    }

    /** A goal on the row or column of `point`, with every cell after `point`
        up to and including the goal clear, is in view. */
    lemma StraightInView(point: Cell, goal: Cell)
      requires (goal.x == point.x || goal.y == point.y) && goal != point && LineClear(point, goal)
      ensures InView(point, goal)
    {
      RowAndColumnScan(point, goal);
    }

    lemma DiagPush(arr: seq<Cell>, out: seq<Cell>, point: Cell, dir: Cell, direct: bool, e: Cell)
      requires DiagHits(arr, out, point, dir, direct)
      requires DiagReport(e, direct) && DiagReach(point, e, dir)
      ensures DiagHits(arr, out + [e], point, dir, direct)
    {
      assert (out + [e])[..|arr|] == out[..|arr|];
    }

    /** The reports of the walk along ray `k` extend those of the first `k`
        rays to reports of the first `k + 1`. */
    lemma JoinRay(arr: seq<Cell>, mid: seq<Cell>, out: seq<Cell>, point: Cell, k: nat, direct: bool)
      requires k < |AllDir|
      requires RayHits(arr, mid, point, k, direct) && DiagHits(mid, out, point, AllDir[k], direct)
      ensures RayHits(arr, out, point, k + 1, direct)
    {
      assert out[..|arr|] == mid[..|arr|];
      forall i | |arr| <= i < |out|
        ensures DiagReport(out[i], direct) && InReach(point, out[i], k + 1)
      {
        if i < |mid| {
          assert out[i] == mid[i];
        }
      }
    }

    /** The work at diagonal step `v2` of the walk from `point`: meeting the
        goal ends the walk (ReachGoal); a step other than the first with a
        forced neighbour is added and ends the walk; otherwise the cardinal
        scan along the components of `dir` runs from `v2` (its reports are
        `scan`), and `v2` is added when it reports anything. `None` means the
        walk goes on. */
    method DiagStep(out: seq<Cell>, res: seq<Cell>, point: Cell, v2: Cell, dir: Cell, tag: bool, already: bool)
      returns (res': seq<Cell>, end: Option<Walk>, ghost scan: seq<Cell>)
      requires targetPoint.Some? && InMap(targetPoint.value) && nowPoint.Some?
      requires IsClear(v2) && DiagReach(point, v2, dir)
      requires DiagHits(out, res, point, dir, nowPoint == Some(point))
      ensures DiagHits(out, res', point, dir, nowPoint == Some(point))
      ensures end == Some(MetGoal(true)) ==> nowPoint == Some(point) && DiagReach(point, targetPoint.value, dir)
      ensures end.Some? && end.value.Scanned? ==>
                && end.value.v == v2 && res' == res
                && (already || (nowPoint == Some(v2) && Visible(v2, targetPoint.value)))
      ensures end.Some? && end.value.MetGoal? ==>
                && v2 == targetPoint.value && (end.value.found <==> nowPoint == Some(point))
                && res' == if end.value.found then res else res + [v2]
      ensures end == Some(Exhausted) ==>
                v2 != targetPoint.value && tag && |ForcedNeighbour(v2, dir)| > 0 && res' == res + [v2]
      ensures end.None? ==>
                && v2 != targetPoint.value && !(tag && |ForcedNeighbour(v2, dir)| > 0)
                && Hits([], scan, v2, [dir])
                && res' == if |scan| > 0 then res + [v2] else res
    {
      res', end, scan := res, None, [];
      if Some(v2) == targetPoint {
        if nowPoint != Some(point) {
          DiagPush(out, res, point, dir, false, v2);
        }
        var found;
        res', found := ReachGoal(res, point).0, ReachGoal(res, point).1;
        return res', Some(MetGoal(found)), scan;
      }
      if tag && |ForcedNeighbour(v2, dir)| > 0 {
        // the starting cell itself is never tested
        DiagPush(out, res, point, dir, nowPoint == Some(point), v2);
        return res + [v2], Some(Exhausted), scan;
      }
      var arr1, found := SearchBase([], v2, [dir]);
      scan := arr1;
      if found || already {
        return res, Some(Scanned(v2)), scan;
      }
      if |arr1| > 0 {
        DiagPush(out, res, point, dir, nowPoint == Some(point), v2);
        res' := res + [v2];
      }
    }

    /** Walks one diagonal `dir` from `point` while the cell is clear and one
        of the two cells it would cut between is clear, doing DiagStep at
        each cell; a step onto the goal ends the walk even where the loop
        test would fail. `already` is whether the search had found the goal
        beforehand. */
    method WalkDiagonal(out: seq<Cell>, point: Cell, dir: Cell, already: bool) returns (res: seq<Cell>, w: Walk)
      requires targetPoint.Some? && InMap(targetPoint.value) && nowPoint.Some?
      requires Abs(dir.x) == 1 && Abs(dir.y) == 1
      ensures DiagHits(out, res, point, dir, nowPoint == Some(point))
      ensures w == MetGoal(true) ==> nowPoint == Some(point) && DiagReach(point, targetPoint.value, dir)
      ensures w.Scanned? ==>
                && IsClear(w.v) && DiagReach(point, w.v, dir)
                && (already || (nowPoint == Some(w.v) && Visible(w.v, targetPoint.value)))
      ensures w.MetGoal? ==> (w.found <==> nowPoint == Some(point))
      ensures DiagSeesGoal(point, targetPoint.value, dir) ==> w != Exhausted
    {
      res := out;
      var v2 := point;
      var tag := false;
      ghost var t: nat := 0;
      while Walkable(v2, dir)
        invariant DiagHits(out, res, point, dir, nowPoint == Some(point))
        invariant v2 == DiagCell(point, dir, t) && (tag <==> t > 0) && DiagReach(point, v2, dir)
        invariant NotMetBy(point, targetPoint.value, dir, t)
        decreases if dir.x == 1 then cols - v2.x else v2.x + 1
      {
        var end;
        v2, res, end := WalkStep(out, res, point, v2, dir, tag, already, t);
        if end.Some? {
          return res, end.value;
        }
        tag := true;
        t := t + 1;
      }
      StopsShort(point, targetPoint.value, dir, t);
      return res, Exhausted;
    }

    /** One turn of the diagonal walk at step `t`, cell `v2`: DiagStep, then,
        unless that ended the walk, DiagAdvance. A walk that reaches the goal
        is not cut short here. */
    method WalkStep(out: seq<Cell>, res: seq<Cell>, point: Cell, v2: Cell, dir: Cell, tag: bool, already: bool,
                    ghost t: nat)
      returns (v2': Cell, res': seq<Cell>, end: Option<Walk>)
      requires targetPoint.Some? && InMap(targetPoint.value) && nowPoint.Some?
      requires Abs(dir.x) == 1 && Abs(dir.y) == 1
      requires v2 == DiagCell(point, dir, t) && (tag <==> t > 0) && DiagReach(point, v2, dir) && Walkable(v2, dir)
      requires DiagHits(out, res, point, dir, nowPoint == Some(point))
      requires NotMetBy(point, targetPoint.value, dir, t)
      ensures DiagHits(out, res', point, dir, nowPoint == Some(point))
      ensures end.None? ==> v2' == DiagCell(point, dir, t + 1) && DiagReach(point, v2', dir)
      ensures end == Some(MetGoal(true)) ==> nowPoint == Some(point) && DiagReach(point, targetPoint.value, dir)
      ensures end.Some? && end.value.Scanned? ==>
                && IsClear(end.value.v) && DiagReach(point, end.value.v, dir)
                && (already || (nowPoint == Some(end.value.v) && Visible(end.value.v, targetPoint.value)))
      ensures end.Some? && end.value.MetGoal? ==> (end.value.found <==> nowPoint == Some(point))
      ensures end == Some(Exhausted) ==> !DiagSeesGoal(point, targetPoint.value, dir)
      ensures end.None? ==> NotMetBy(point, targetPoint.value, dir, t + 1)
    {
      ghost var scan;
      res', end, scan := DiagStep(out, res, point, v2, dir, tag, already);
      v2' := v2;
      if end.Some? {
        if end.value.Exhausted? {
          StopsShort(point, targetPoint.value, dir, t);
        }
        return;
      }
      var next := DiagAdvance(out, res', point, v2, dir, t);
      v2', res', end := next.0, next.1, next.2;
    }

    /** The move to the next diagonal step after `v2`, step `t` of the walk
        from `point`: meeting the goal there ends the walk (ReachGoal). */
    function DiagAdvance(out: seq<Cell>, res: seq<Cell>, point: Cell, v2: Cell, dir: Cell, ghost t: nat)
      : (r: (Cell, seq<Cell>, Option<Walk>))
      requires targetPoint.Some? && InMap(targetPoint.value) && nowPoint.Some?
      requires Abs(dir.x) == 1 && Abs(dir.y) == 1 && v2 == DiagCell(point, dir, t)
      requires DiagReach(point, v2, dir) && Walkable(v2, dir)
      requires DiagHits(out, res, point, dir, nowPoint == Some(point))
      reads this`fixClosedListMap, this`targetPoint, this`nowPoint
      ensures r.0 == DiagCell(point, dir, t + 1) && DiagReach(point, r.0, dir)
      ensures DiagHits(out, r.1, point, dir, nowPoint == Some(point))
      ensures r.2.None? ==> r.1 == res && r.0 != targetPoint.value
      ensures r.2.Some? ==>
                && r.2.value.MetGoal? && r.0 == targetPoint.value
                && (r.2.value.found <==> nowPoint == Some(point))
                && r.1 == if r.2.value.found then res else res + [r.0]
    {
      var v2' := Cell(v2.x + dir.x, v2.y + dir.y);
      if Some(v2') != targetPoint then (v2', res, None)
      else if nowPoint == Some(point) then (v2', res, Some(MetGoal(true)))
      else
        DiagPush(out, res, point, dir, false, v2');
        (v2', res + [v2'], Some(MetGoal(false)))
    }

    /** The cardinal scan from diagonal step `v2` ended the search: `v2` is
        opened (unless closed) and made the current point. */
    method EnterStep(v2: Cell)
      requires Valid() && nowPoint.Some? && targetPoint.Some? && IsClear(v2)
      modifies this`nowPoint, this`mapTable, this`openList, this`openListMap
      ensures Valid() && nowPoint.Some?
      ensures v2 in closedListMap ==> unchanged(this`nowPoint, this`mapTable, this`openList, this`openListMap)
      ensures v2 !in closedListMap ==> nowPoint == Some(v2) && v2 in openListMap
      ensures v2 !in closedListMap && v2 !in old(openListMap) ==>
                && mapTable == old(mapTable)[v2 := Scored(old(mapTable), v2, old(nowPoint).value, targetPoint.value)]
                && openList == old(openList) + [v2] && openListMap == old(openListMap) + {v2}
      ensures v2 !in closedListMap && v2 in old(openListMap) ==>
                && mapTable == Reparented(old(mapTable), v2, old(nowPoint).value, targetPoint.value)
                && openList == old(openList) && openListMap == old(openListMap)
      ensures old(SearchInv()) && old(nowPoint).value in closedListMap ==>
                SearchInv() && (nowPoint.value in closedListMap || nowPoint.value in openListMap)
    {
      if !IsInClosedList(v2) {
        var ok := AddToOpenList(v2);
        nowPoint := Some(v2);
      }
    }

    /** Walks the four diagonals from `point` in the order of AllDir,
        stopping at the first walk that meets the goal or ends the search;
        `last` is the index of the last diagonal walked. No earlier walk
        could reach the goal, and every report lies on a diagonal walked. */
    method WalkDiagonals(arr: seq<Cell>, point: Cell, already: bool)
      returns (out: seq<Cell>, w: Walk, ghost last: nat)
      requires targetPoint.Some? && InMap(targetPoint.value) && nowPoint.Some?
      ensures last < |AllDir| && RayHits(arr, out, point, last + 1, nowPoint == Some(point))
      ensures forall j :: 0 <= j < last ==> !DiagSeesGoal(point, targetPoint.value, AllDir[j])
      ensures w == Exhausted ==> last == |AllDir| - 1 && !DiagInView(point, targetPoint.value)
      ensures w.MetGoal? ==> (w.found <==> nowPoint == Some(point))
      ensures w == MetGoal(true) ==> nowPoint == Some(point) && DiagReach(point, targetPoint.value, AllDir[last])
      ensures w.Scanned? ==>
                && IsClear(w.v) && DiagReach(point, w.v, AllDir[last])
                && (already || (nowPoint == Some(w.v) && Visible(w.v, targetPoint.value)))
    {
      out, last := arr, 0;
      for k := 0 to |AllDir|
        invariant RayHits(arr, out, point, k, nowPoint == Some(point))
        invariant k > 0 ==> last == k - 1
        invariant forall j :: 0 <= j < k ==> !DiagSeesGoal(point, targetPoint.value, AllDir[j])
      {
        var mid := out;
        out, w := WalkDiagonal(out, point, AllDir[k], already);
        JoinRay(arr, mid, out, point, k, nowPoint == Some(point));
        last := k;
        if w != Exhausted {
          return;
        }
      }
      w := Exhausted;
    }
    /** The diagonal scan of the current round (WalkDiagonals); when the
        cardinal scan from a diagonal step ends the search (`w` is
        `Scanned`), that step is opened (unless closed) and made the current
        point. `found` says that the goal was found; `last` is the last
        diagonal walked. From the current point, a goal that a diagonal walk
        reaches is found. */
    method Search45(arr: seq<Cell>, point: Cell) returns (out: seq<Cell>, found: bool, w: Walk, ghost last: nat)
      requires Valid() && targetPoint.Some? && nowPoint.Some?
      modifies this`nowPoint, this`mapTable, this`openList, this`openListMap
      ensures Valid() && nowPoint.Some?
      ensures last < |AllDir| && RayHits(arr, out, point, last + 1, old(nowPoint) == Some(point))
      ensures found <==> w == MetGoal(true) || w.Scanned?
      ensures old(nowPoint) == Some(point) && DiagInView(point, targetPoint.value) ==> found
      ensures found && !hasFindTarget ==>
                InReach(point, old(nowPoint).value, |AllDir|) && Visible(old(nowPoint).value, targetPoint.value)
      ensures !hasFindTarget && old(nowPoint) == Some(point) && point in closedListMap ==>
                && nowPoint == old(nowPoint) && mapTable == old(mapTable)
                && openList == old(openList) && openListMap == old(openListMap)
      ensures !w.Scanned? || w.v in closedListMap ==>
                && nowPoint == old(nowPoint) && mapTable == old(mapTable)
                && openList == old(openList) && openListMap == old(openListMap)
      ensures w.Scanned? ==>
                && IsClear(w.v) && InReach(point, w.v, |AllDir|)
                && (hasFindTarget || old(nowPoint) == Some(w.v))
      ensures w.Scanned? && w.v !in closedListMap ==> nowPoint == Some(w.v)
      ensures w.Scanned? && w.v !in closedListMap && w.v !in old(openListMap) ==>
                && mapTable == old(mapTable)[w.v := Scored(old(mapTable), w.v, old(nowPoint).value, targetPoint.value)]
                && openList == old(openList) + [w.v] && openListMap == old(openListMap) + {w.v}
      ensures w.Scanned? && w.v !in closedListMap && w.v in old(openListMap) ==>
                && mapTable == Reparented(old(mapTable), w.v, old(nowPoint).value, targetPoint.value)
                && openList == old(openList) && openListMap == old(openListMap)
      ensures old(SearchInv()) && old(nowPoint).value in closedListMap ==>
                SearchInv() && (nowPoint.value in closedListMap || nowPoint.value in openListMap)
    {
      out, w, last := WalkDiagonals(arr, point, hasFindTarget);
      found := false;
      match w
      case Exhausted =>
      case MetGoal(f) =>
        found := f;
        if f {
          assert DiagReach(point, point, AllDir[|AllDir| - 1]);
          ReachWiden(point, targetPoint.value, last + 1, |AllDir|);
        }
      case Scanned(v2) =>
        found := true;
        ReachWiden(point, v2, last + 1, |AllDir|);
        EnterStep(v2);
    }

    /** A cell reached along one of the first `n` rays is reached along one
        of the first `m`. */
    lemma {:induction false} ReachWiden(point: Cell, e: Cell, n: nat, m: nat)
      requires n <= m <= |AllDir| && InReach(point, e, n)
      ensures InReach(point, e, m)
      decreases m
    {
      if n < m {
        ReachWiden(point, e, n, m - 1);
      }
    }

    // ---------------------------------------------------------------- driver

    /** Every cell of `dom` that has a parent in `m` is Visible from it. */
    ghost predicate LinksIn(m: map<Cell, PathPoint>, dom: set<Cell>)
      reads this`fixClosedListMap
    {
      forall c :: c in dom && c in m && m[c].parent.Some? ==> Visible(m[c].parent.value, c)
    }

    /** Every parent link of the current search (of a closed, open or the
        current cell) joins cells with nothing blocked between them. */
    ghost predicate LinksVisible()
      reads this`mapTable, this`fixClosedListMap, this`closedListMap, this`openListMap, this`nowPoint
    {
      forall c :: && (c in closedListMap || c in openListMap || Some(c) == nowPoint)
                  && c in mapTable && mapTable[c].parent.Some? ==>
                    Visible(mapTable[c].parent.value, c)
    }

    /** Offering cells Visible from `n` to the open list, with `n` as parent,
        keeps every link of the search Visible. */
    lemma OfferKeepsLinks(m0: map<Cell, PathPoint>, open0: set<Cell>, dom: set<Cell>, done: set<Cell>,
                          n: Cell, target: Cell, m1: map<Cell, PathPoint>)
      requires n in m0 && open0 <= dom && LinksIn(m0, dom)
      requires forall c :: c in open0 ==> c in m0 && m0[c].parent.Some? && m0[c].parent.value in m0
      requires forall c :: c in done ==> Visible(n, c)
      requires m1.Keys == m0.Keys && forall c :: c in m0 ==> m1[c] == Offered(m0, open0, done, n, target, c)
      ensures LinksIn(m1, dom + done)
    {
      forall c | c in dom + done && c in m1 && m1[c].parent.Some?
        ensures Visible(m1[c].parent.value, c)
      {
        OfferedParent(m0, open0, done, n, target, c);
      }
    }

    /** The current point is next to be closed: in the table, neither closed,
        open nor an obstacle; the start when nothing is closed yet, otherwise
        another cell whose parent is closed. */
    ghost predicate Frontier()
      reads this`mapTable, this`openListMap, this`fixClosedListMap, this`closedListMap,
            this`bronPoint, this`nowPoint
    {
      && nowPoint.Some? && bronPoint.Some?
      && var n := nowPoint.value;
         && n in mapTable && n !in closedListMap && n !in openListMap && n !in fixClosedListMap
         && (if closedListMap == {} then n == bronPoint.value
             else n != bronPoint.value && mapTable[n].parent.Some? && mapTable[n].parent.value in closedListMap)
    }

    /** Closes the current point. */
    method CloseCurrent()
      requires SearchInv() && Frontier()
      modifies this`closedListMap, this`rank, this`nextRank
      ensures SearchInv() && closedListMap == old(closedListMap) + {nowPoint.value}
      ensures old(LinksVisible()) ==> LinksVisible()
    {
      Close(mapTable, openListMap, fixClosedListMap, closedListMap, bronPoint.value, targetPoint.value,
            rank, nextRank, nowPoint.value);
      var ok := AddToClosedList(nowPoint.value);
    }

    /** Opens every jump point that is not closed: a new one is scored from
        the current point and appended to the open list, an open one is
        offered the current point as its parent. No other record changes. */
    method OpenJumpPoints(jPoint: seq<Cell>)
      requires SearchInv() && nowPoint.Some? && nowPoint.value in closedListMap
      requires forall i :: 0 <= i < |jPoint| ==> IsClear(jPoint[i])
      modifies this`mapTable, this`openList, this`openListMap
      ensures SearchInv()
      ensures openListMap == old(openListMap) + Unclosed(jPoint, closedListMap)
      ensures |old(openList)| <= |openList| && openList[..|old(openList)|] == old(openList)
      ensures mapTable.Keys == old(mapTable).Keys
      ensures forall c :: c in old(mapTable) ==>
                mapTable[c] == Offered(old(mapTable), old(openListMap), Unclosed(jPoint, closedListMap),
                                       nowPoint.value, targetPoint.value, c)
    {
      ghost var m0, open0, list0 := mapTable, openListMap, openList;
      assert OpenOK(m0, open0, closedListMap, fixClosedListMap, targetPoint.value);
      for k := 0 to |jPoint|
        invariant SearchInv()
        invariant openListMap == open0 + Unclosed(jPoint[..k], closedListMap)
        invariant |list0| <= |openList| && openList[..|list0|] == list0
        invariant mapTable.Keys == m0.Keys
        invariant forall c :: c in m0 ==>
                    mapTable[c] == Offered(m0, open0, Unclosed(jPoint[..k], closedListMap),
                                           nowPoint.value, targetPoint.value, c)
      {
        var j := jPoint[k];
        assert jPoint[..k + 1] == jPoint[..k] + [j];
        ghost var done := Unclosed(jPoint[..k], closedListMap);
        UnclosedSnoc(jPoint[..k], j, closedListMap);
        if !IsInClosedList(j) {
          OfferJumpPoint(j, m0, open0, done);
        }
      }
      assert jPoint[..|jPoint|] == jPoint;
    }

    /** One step of OpenJumpPoints: `j`, neither closed nor fixed, is offered
        the current point as parent after the cells `done` were, starting from
        the table `m0` and the open set `open0`. */
    method OfferJumpPoint(j: Cell, ghost m0: map<Cell, PathPoint>, ghost open0: set<Cell>, ghost done: set<Cell>)
      requires SearchInv() && nowPoint.Some? && nowPoint.value in closedListMap
      requires IsClear(j) && j !in closedListMap && done !! closedListMap
      requires m0.Keys == mapTable.Keys && nowPoint.value in m0
      requires OpenOK(m0, open0, closedListMap, fixClosedListMap, targetPoint.value)
      requires openListMap == open0 + done
      requires forall c :: c in m0 ==> mapTable[c] == Offered(m0, open0, done, nowPoint.value, targetPoint.value, c)
      modifies this`mapTable, this`openList, this`openListMap
      ensures SearchInv()
      ensures openListMap == open0 + (done + {j})
      ensures openList == old(openList) || openList == old(openList) + [j]
      ensures mapTable.Keys == m0.Keys
      ensures forall c :: c in m0 ==> mapTable[c] == Offered(m0, open0, done + {j}, nowPoint.value, targetPoint.value, c)
    {
      ghost var cur := mapTable;
      var ok := AddToOpenList(j);
      OfferOne(m0, open0, done, cur, j, nowPoint.value, targetPoint.value);
    }

    /** What the cardinal scan from the current point `n` reports lies on
        n's row or column, in view of `n`, clear and not the goal; a scan that
        did not find the goal reports every jump cell on those lines. */
    lemma BaseReports(n: Cell, jPoint: seq<Cell>, found: bool)
      requires targetPoint.Some? && nowPoint == Some(n) && Hits([], jPoint, n, RowAndColumn)
      requires !found && targetPoint.value !in jPoint[0..] ==>
                 ScansAll(n, RowAndColumn, jPoint)
      ensures forall i :: 0 <= i < |jPoint| ==>
                && OnScanLine(n, jPoint[i], RowAndColumn) && PathClear(n, jPoint[i])
                && IsClear(jPoint[i]) && jPoint[i] != targetPoint.value && Visible(n, jPoint[i])
      ensures !found ==> ScansAll(n, RowAndColumn, jPoint)
    {
      assert jPoint[0..] == jPoint;
      forall i | 0 <= i < |jPoint|
        ensures OnScanLine(n, jPoint[i], RowAndColumn) && Visible(n, jPoint[i])
      {
        assert ScanHit(n, jPoint[i], RowAndColumn);
      }
    }

    /** The two scans from the closed current point `n`: first along its row
        and column (SearchBase with the directions (1, 1) and (-1, -1), which
        switch on all four cursors), then, unless that found the goal, along
        the diagonals (Search45). Neither changes the search state here. The
        goal is `found` only on a line through `n`; otherwise the first `m`
        jump points lie on n's row or column and the rest on its diagonals,
        and all are clear. */
    method ScanFrom(n: Cell) returns (jPoint: seq<Cell>, found: bool, ghost m: nat)
      requires SearchInv() && nowPoint == Some(n) && n in closedListMap && !hasFindTarget
      modifies this`nowPoint, this`mapTable, this`openList, this`openListMap
      ensures SearchInv()
      ensures nowPoint == old(nowPoint) && mapTable == old(mapTable)
      ensures openList == old(openList) && openListMap == old(openListMap)
      ensures found ==> Visible(n, targetPoint.value)
      ensures InView(n, targetPoint.value) ==> found
      ensures !found ==>
                && m <= |jPoint|
                && (forall i :: 0 <= i < m ==> OnScanLine(n, jPoint[i], RowAndColumn) && PathClear(n, jPoint[i]))
                && (forall i :: m <= i < |jPoint| ==> InReach(n, jPoint[i], |AllDir|))
                && (forall i :: 0 <= i < |jPoint| ==>
                      IsClear(jPoint[i]) && jPoint[i] != targetPoint.value && Visible(n, jPoint[i]))
                && ScansAll(n, RowAndColumn, jPoint[..m])
    {
      jPoint, found := SearchBase([], n, RowAndColumn);
      m := |jPoint|;
      if found {
        return;
      }
      BaseReports(n, jPoint, found);
      var base := jPoint;
      ghost var last;
      var w;
      jPoint, found, w, last := Search45(jPoint, n);
      assert jPoint[..m] == base;
      forall i | m <= i < |jPoint|
        ensures InReach(n, jPoint[i], |AllDir|)
      {
        ReachWiden(n, jPoint[i], last + 1, |AllDir|);
      }
    }

    /** One round of the search: close the current point, scan from it, and,
        unless the goal was `found`, open the jump points the scans report.
        The current point stays; every jump point ends closed or open, and
        no open cell is lost. */
    method Expand() returns (found: bool, jPoint: seq<Cell>, ghost m: nat)
      requires SearchInv() && Frontier() && !hasFindTarget && LinksVisible()
      modifies this`closedListMap, this`rank, this`nextRank, this`nowPoint,
               this`mapTable, this`openList, this`openListMap
      ensures SearchInv() && LinksVisible() && nowPoint == old(nowPoint) && bronPoint.value in closedListMap
      ensures closedListMap == old(closedListMap) + {old(nowPoint).value}
      ensures old(openListMap) <= openListMap
      ensures found ==> Visible(nowPoint.value, targetPoint.value)
      ensures InView(nowPoint.value, targetPoint.value) ==> found
      ensures found ==> mapTable == old(mapTable) && openList == old(openList) && openListMap == old(openListMap)
      ensures !found ==>
                && m <= |jPoint|
                && (forall i :: 0 <= i < m ==>
                      OnScanLine(nowPoint.value, jPoint[i], RowAndColumn) && PathClear(nowPoint.value, jPoint[i]))
                && (forall i :: m <= i < |jPoint| ==> InReach(nowPoint.value, jPoint[i], |AllDir|))
                && (forall i :: 0 <= i < |jPoint| ==>
                      IsClear(jPoint[i]) && jPoint[i] != targetPoint.value && Visible(nowPoint.value, jPoint[i]))
                && ScansAll(nowPoint.value, RowAndColumn, jPoint[..m])
                && openListMap == old(openListMap) + Unclosed(jPoint, closedListMap)
                && mapTable.Keys == old(mapTable).Keys
                && (forall c :: c in old(mapTable) ==>
                      mapTable[c] == Offered(old(mapTable), old(openListMap), Unclosed(jPoint, closedListMap),
                                             nowPoint.value, targetPoint.value, c))
                && (forall i :: 0 <= i < |jPoint| ==> jPoint[i] in closedListMap || jPoint[i] in openListMap)
    {
      var n := nowPoint.value;
      CloseCurrent();
      jPoint, found, m := ScanFrom(n);
      if !found {
        OfferReports(jPoint);
        assert forall i :: 0 <= i < |jPoint| ==> jPoint[i] in closedListMap || jPoint[i] in Unclosed(jPoint, closedListMap);
      }
    }

    /** Opens the jump points reported from the closed current point
        (OpenJumpPoints). Each is Visible from it, so every link of the
        search stays Visible. */
    method OfferReports(jPoint: seq<Cell>)
      requires SearchInv() && nowPoint.Some? && nowPoint.value in closedListMap && LinksVisible()
      requires forall i :: 0 <= i < |jPoint| ==> IsClear(jPoint[i]) && Visible(nowPoint.value, jPoint[i])
      modifies this`mapTable, this`openList, this`openListMap
      ensures SearchInv() && LinksVisible()
      ensures openListMap == old(openListMap) + Unclosed(jPoint, closedListMap)
      ensures mapTable.Keys == old(mapTable).Keys
      ensures forall c :: c in old(mapTable) ==>
                mapTable[c] == Offered(old(mapTable), old(openListMap), Unclosed(jPoint, closedListMap),
                                       nowPoint.value, targetPoint.value, c)
    {
      ghost var m0, open0, dom := mapTable, openListMap, closedListMap + openListMap;
      assert LinksIn(m0, dom);
      OpenJumpPoints(jPoint);
      OfferKeepsLinks(m0, open0, dom, Unclosed(jPoint, closedListMap), nowPoint.value, targetPoint.value, mapTable);
    }

    /** Starts a search from `start` to `goal` on a cleared search state:
        both become the current and the goal point, and the start loses its
        parent. */
    method Begin(start: Cell, goal: Cell)
      requires Valid() && InMap(start) && InMap(goal) && start !in fixClosedListMap
      requires openList == [] && openListMap == {} && closedListMap == {}
      requires rank == map[] && nextRank == 0
      modifies this`nowPoint, this`bronPoint, this`mapTable, this`targetPoint
      ensures SearchInv() && Frontier()
      ensures nowPoint == Some(start) && bronPoint == Some(start) && targetPoint == Some(goal)
      ensures mapTable == old(mapTable)[start := old(mapTable)[start].(parent := None)]
    {
      nowPoint, bronPoint := Some(start), Some(start);
      mapTable := mapTable[start := mapTable[start].(parent := None)];
      targetPoint := Some(goal);
    }

    /** Makes the open cell of least F the current point; `more` is false,
        and there is no current point, when the open list is empty. */
    method Next() returns (more: bool)
      requires SearchInv() && bronPoint.value in closedListMap && LinksVisible()
      modifies this`openList, this`openListMap, this`nowPoint
      ensures SearchInv() && LinksVisible()
      ensures more <==> old(openList) != []
      ensures !more ==> nowPoint == None && openList == []
      ensures more ==>
                && Frontier() && nowPoint.value in old(openListMap)
                && openListMap == old(openListMap) - {nowPoint.value}
                && (forall d :: d in old(openListMap) ==> mapTable[nowPoint.value].F <= mapTable[d].F)
    {
      nowPoint := RemoveMinFFromOpenList();
      more := nowPoint.Some?;
    }

    /** One turn of the search loop: Expand, then, unless the goal was
        `found`, Next. The current point is closed; without the goal, every
        jump point of the round ends closed, open or current, no open cell
        is lost but the new current one, and `more` tells whether there is
        one: the open cell of least F, or none when the open list ran empty. */
    method Advance() returns (found: bool, more: bool, jPoint: seq<Cell>, ghost m: nat)
      requires SearchInv() && Frontier() && !hasFindTarget && LinksVisible()
      modifies this`closedListMap, this`rank, this`nextRank, this`nowPoint,
               this`mapTable, this`openList, this`openListMap
      ensures SearchInv() && LinksVisible() && bronPoint.value in closedListMap
      ensures closedListMap == old(closedListMap) + {old(nowPoint).value}
      ensures |closedListMap| == |old(closedListMap)| + 1
      ensures found ==>
                && !more && nowPoint == old(nowPoint)
                && nowPoint.value in closedListMap && Visible(nowPoint.value, targetPoint.value)
      ensures InView(old(nowPoint).value, targetPoint.value) ==> found
      ensures !found ==>
                && m <= |jPoint|
                && (forall i :: 0 <= i < m ==>
                      OnScanLine(old(nowPoint).value, jPoint[i], RowAndColumn) && PathClear(old(nowPoint).value, jPoint[i]))
                && (forall i :: m <= i < |jPoint| ==> InReach(old(nowPoint).value, jPoint[i], |AllDir|))
                && (forall i :: 0 <= i < |jPoint| ==>
                      IsClear(jPoint[i]) && jPoint[i] != targetPoint.value && Visible(old(nowPoint).value, jPoint[i]))
                && ScansAll(old(nowPoint).value, RowAndColumn, jPoint[..m])
                && (forall i :: 0 <= i < |jPoint| ==>
                      jPoint[i] in closedListMap || jPoint[i] in openListMap || Some(jPoint[i]) == nowPoint)
                && (forall d :: d in old(openListMap) ==> d in openListMap || Some(d) == nowPoint)
      ensures !found && !more ==> nowPoint == None && openList == []
      ensures !found && more ==>
                && Frontier()
                && (forall d :: d in openListMap ==> mapTable[nowPoint.value].F <= mapTable[d].F)
    {
      found, jPoint, m := Expand();
      more := false;
      if !found {
        more := Next();
      }
    }

    /** The search loop: rounds of Advance until the goal is `found`, the
        open list runs empty, or the round counter passes 666. `rounds` is
        the number of rounds run, one cell closed in each; without the goal,
        the loop stopped on an empty open list or at round 667. */
    method Explore() returns (found: bool, ghost rounds: nat)
      requires SearchInv() && Frontier() && !hasFindTarget && LinksVisible()
      modifies this`closedListMap, this`rank, this`nextRank, this`nowPoint,
               this`mapTable, this`openList, this`openListMap
      ensures SearchInv() && LinksVisible()
      ensures 1 <= rounds <= MaxRounds + 1 && |closedListMap| == |old(closedListMap)| + rounds
      ensures found ==>
                && nowPoint.Some? && bronPoint.value in closedListMap
                && nowPoint.value in closedListMap && Visible(nowPoint.value, targetPoint.value)
      ensures !found ==> (nowPoint == None && openList == []) || rounds == MaxRounds + 1
      ensures InView(old(nowPoint).value, targetPoint.value) ==> found && rounds == 1 && nowPoint == old(nowPoint)
    {
      var maxSearchAmount := 0;
      rounds := 0;
      found := false;
      while !found
        invariant SearchInv() && Frontier() && !found && LinksVisible()
        invariant 0 <= maxSearchAmount <= MaxRounds && rounds == maxSearchAmount
        invariant |closedListMap| == |old(closedListMap)| + rounds
        invariant InView(old(nowPoint).value, targetPoint.value) ==> rounds == 0 && nowPoint == old(nowPoint)
        decreases MaxRounds + 1 - maxSearchAmount
      {
        var more, jPoint;
        ghost var m;
        found, more, jPoint, m := Advance();
        rounds := rounds + 1;
        if found {
          return;
        }
        if !more {
          return;
        }
        maxSearchAmount := maxSearchAmount + 1;
        if maxSearchAmount > MaxRounds {
          return;
        }
      }
    }

    /** The search proper, from cell `start` to cell `goal` on a cleared
        search state: [goal] when they coincide; otherwise [] when the open
        list ran empty or the round cap was passed, and else the cells from
        the start to the goal along parent links, the last step being a
        straight or diagonal line. */
    method Search(start: Cell, goal: Cell) returns (path: seq<Cell>, ghost rounds: nat)
      requires Valid() && InMap(start) && InMap(goal) && start !in fixClosedListMap
      requires openList == [] && openListMap == {} && closedListMap == {}
      requires rank == map[] && nextRank == 0 && !hasFindTarget
      modifies this`hasFindTarget, this`mapTable, this`openList, this`openListMap,
               this`closedListMap, this`bronPoint, this`targetPoint, this`nowPoint, this`rank, this`nextRank
      ensures Valid()
      ensures start == goal ==> path == [goal] && rounds == 0
      ensures start != goal ==> 1 <= rounds <= MaxRounds + 1 && |closedListMap| == rounds
      ensures start != goal ==> (path == [] <==> !hasFindTarget)
      ensures start != goal && InView(start, goal) ==> path == [start, goal] && rounds == 1
      ensures path == [] ==> (nowPoint == None && openList == []) || rounds == MaxRounds + 1
      ensures path != [] ==> TracedPath(path, start, goal)
    {
      Begin(start, goal);
      rounds := 0;
      if start == goal {
        return [goal], rounds;
      }
      var found;
      found, rounds := Explore();
      if found {
        hasFindTarget := true;
        path := WalkParents(goal);
        return;
      }
      return [], rounds;
    }

    /** Searches a path between two world points. Returns [] when a point is
        off the map, the start is a fixed obstacle, the open list runs empty
        or the loop passes its cap; [goal] when both points fall in one cell;
        otherwise the cells from the start to the goal along parent links. */
    method FindGridPath(bornPoint: Point, targetPos: Point, m: Model) returns (path: seq<Cell>, ghost rounds: nat)
      requires Valid()
      modifies this`hasFindTarget, this`model, this`mapTable, this`openList, this`openListMap,
               this`closedListMap, this`bronPoint, this`targetPoint, this`nowPoint, this`rank, this`nextRank
      ensures Valid()
      ensures fixClosedListMap == old(fixClosedListMap)
      ensures (GetGridPosition(bornPoint).None? || GetGridPosition(targetPos).None? ||
               GetGridPositionRaw(bornPoint) in fixClosedListMap) ==> path == []
      ensures && GetGridPosition(bornPoint).Some? && GetGridPosition(targetPos).Some?
              && GetGridPositionRaw(bornPoint) !in fixClosedListMap
              && GetGridPositionRaw(bornPoint) == GetGridPositionRaw(targetPos) ==>
                path == [GetGridPositionRaw(targetPos)]
      ensures && GetGridPosition(bornPoint).Some? && GetGridPosition(targetPos).Some?
              && GetGridPositionRaw(bornPoint) !in fixClosedListMap && path == [] ==>
                && 1 <= rounds <= MaxRounds + 1
                && ((nowPoint == None && openList == []) || rounds == MaxRounds + 1)
      ensures && GetGridPosition(bornPoint).Some? && GetGridPosition(targetPos).Some?
              && GetGridPositionRaw(bornPoint) !in fixClosedListMap
              && GetGridPositionRaw(bornPoint) != GetGridPositionRaw(targetPos)
              && InView(GetGridPositionRaw(bornPoint), GetGridPositionRaw(targetPos)) ==>
                path == [GetGridPositionRaw(bornPoint), GetGridPositionRaw(targetPos)] && rounds == 1
      ensures path != [] ==> TracedPath(path, GetGridPositionRaw(bornPoint), GetGridPositionRaw(targetPos))
    {
      hasFindTarget := false;
      Clear();
      model := m;
      rounds := 0;
      var p1 := GetGridPosition(bornPoint);
      var p2 := GetGridPosition(targetPos);
      if p1.None? || p2.None? || p1.value in fixClosedListMap {
        return [], rounds;
      }
      path, rounds := Search(p1.value, p2.value);
    }

    /** The table records `child` with `parent` as its parent. */
    ghost predicate ChildOf(child: Cell, parent: Cell)
      reads this`mapTable
    {
      child in mapTable && mapTable[child].parent == Some(parent)
    }

    /** `path` runs from `start` to `goal`: through clear, distinct cells
        before the goal, each of them after the first recorded in the table
        as the child of the cell before it, with nothing blocked between
        consecutive cells. */
    ghost predicate TracedPath(path: seq<Cell>, start: Cell, goal: Cell)
      reads this`mapTable, this`fixClosedListMap
    {
      && |path| >= 1 && path[0] == start && path[|path| - 1] == goal
      && (forall i :: 0 <= i < |path| - 1 ==> IsClear(path[i]) && Visible(path[i], path[i + 1]))
      && (forall i, j :: 0 <= i < j < |path| - 1 ==> path[i] != path[j])
      && (forall i, j :: 0 <= i && j == i + 1 && j < |path| - 1 ==>
            ChildOf(path[j], path[i]))
    }

    /** Follows parent links from the current point back to the start and
        returns the cells from the start to `goal`. */
    method WalkParents(goal: Cell) returns (path: seq<Cell>)
      requires SearchInv() && nowPoint.Some?
      requires bronPoint.value in closedListMap
      requires nowPoint.value in closedListMap || nowPoint.value in openListMap
      ensures |path| >= 2 && path[0] == bronPoint.value && path[|path| - 1] == goal
      ensures LinksVisible() && Visible(nowPoint.value, goal) ==> TracedPath(path, bronPoint.value, goal)
      ensures path[|path| - 2] == nowPoint.value
      ensures nowPoint == bronPoint ==> path == [bronPoint.value, goal]
      ensures forall i :: 0 <= i < |path| - 1 ==> IsClear(path[i])
      ensures forall i, j :: 0 <= i < j < |path| - 1 ==> path[i] != path[j]
      ensures forall i, j :: 0 <= i && j == i + 1 && j < |path| - 1 ==>
                ChildOf(path[j], path[i])
    {
      var p := nowPoint.value;
      var paths := [goal, p];
      if p in closedListMap {
        assert Closed(closedListMap, p);
      }
      while mapTable[p].parent.Some?
        invariant p in closedListMap || p in openListMap
        invariant p in mapTable
        invariant |paths| >= 2 && paths[0] == goal && paths[1] == nowPoint.value && paths[|paths| - 1] == p
        invariant forall i :: 1 <= i < |paths| ==> paths[i] in closedListMap || paths[i] in openListMap
        invariant forall i :: 1 <= i < |paths| ==> IsClear(paths[i])
        invariant forall i, j :: 1 <= i < j < |paths| ==> Order(paths[j]) < Order(paths[i])
        invariant forall i, j :: 1 <= i && j == i + 1 && j < |paths| ==>
                    ChildOf(paths[i], paths[j])
        decreases Order(p)
      {
        if p in closedListMap {
          assert Closed(closedListMap, p);
        }
        p := mapTable[p].parent.value;
        assert Closed(closedListMap, p);
        paths := paths + [p];
      }
      if p in closedListMap {
        assert Closed(closedListMap, p);
      }
      path := Reversed(paths);
      ParentTrail(paths, goal, path);
    }

    /** The parent links followed back from the goal's neighbour `paths[1]`,
        read in reverse, run forward from parent to child: clear, distinct
        cells, each the recorded child of the one before, and, where every
        parent link is Visible, with nothing blocked between neighbours. */
    lemma ParentTrail(paths: seq<Cell>, goal: Cell, path: seq<Cell>)
      requires RankOK(rank, nextRank, closedListMap)
      requires |paths| >= 2 && paths[0] == goal && path == Reversed(paths)
      requires forall i :: 1 <= i < |paths| ==> paths[i] in closedListMap || paths[i] in openListMap
      requires forall i :: 1 <= i < |paths| ==> IsClear(paths[i])
      requires forall i, j :: 1 <= i < j < |paths| ==> Order(paths[j]) < Order(paths[i])
      requires forall i, j :: 1 <= i && j == i + 1 && j < |paths| ==>
                 ChildOf(paths[i], paths[j])
      ensures forall i :: 0 <= i < |path| - 1 ==> IsClear(path[i])
      ensures forall i, j :: 0 <= i < j < |path| - 1 ==> path[i] != path[j]
      ensures forall i, j :: 0 <= i && j == i + 1 && j < |path| - 1 ==>
                ChildOf(path[j], path[i])
      ensures LinksVisible() && Visible(paths[1], goal) ==>
                forall i :: 0 <= i < |path| - 1 ==> Visible(path[i], path[i + 1])
    {
      forall i, j | 0 <= i < j < |path| - 1
        ensures path[i] != path[j]
      {
        assert Order(path[i]) < Order(path[j]);
      }
      forall i, j | 0 <= i && j == i + 1 && j < |path| - 1
        ensures ChildOf(path[j], path[i])
      {
        var k := |paths| - 1 - j;
        assert path[j] == paths[k] && path[i] == paths[k + 1];
      }
      if LinksVisible() && Visible(paths[1], goal) {
        forall i | 0 <= i < |path| - 1
          ensures Visible(path[i], path[i + 1])
        {
          if i < |path| - 2 {
            var k := |paths| - 2 - i;
            assert path[i + 1] == paths[k] && path[i] == paths[k + 1];
          }
        }
      }
    }
  }
}
